=== FILE: README.md ===
# simlib scheduling core in Dafny

A model of the scheduling and dispatch engine of simlib, a small C++
discrete-event simulation library. It covers four parts:

- **The calendars.** Each calendar is a min-priority queue of scheduled objects keyed on their next fire time, and also supports removal by GUID. The calendar list gives one global `top`, `pop` and `all_empty` over all its calendars.
- **The simulation.** This is the object registry: the GUID counter plus the GUID, type and class indexes, with their lookups. It also holds `Terminate` and the main `Run` loop.
- **The life cycle of a simulation object.** This covers absolute and relative `Schedule`, `ClearScheduleInfo`, `Terminate`, and periodic scheduling driven by a delta generator.
- **An event's firing.** The event selects its targets through its criteria: a registry lookup, then field filters and ALL / ONE / K_OF_N mode filters. It then dispatches to the targets and disposes of itself.

The model is an immutable state.

- **Objects.** Every object lives in an arena `map<Guid, Obj>`, and the registry's GUID index is a set of GUIDs. An object stays in the arena after it leaves the registry, as shared ownership keeps it alive.
- **Calendars.** A calendar is the `seq<Guid>` of its objects in insertion order. Its top is specified as a minimum, not as a heap layout. A calendar is named by its position in the simulation's calendar list.
- **Calendar references.** Each object records the calendar it is scheduled on. The invariant `Valid` says that an object on a calendar refers to that calendar, so it sits on at most one. The converse, that a reference names a calendar the object sits on, is `CalendarRefsExact`. Lemmas show that Schedule, Unschedule, Terminate, the periodic-schedule operations, an event's firing and a pass of the main loop keep it, with one exception. A relative `Schedule` of a detached object takes the object off its calendar and returns early, which leaves its reference stale.
- **Numbers.** Every number source is a `Stream` of naturals with a read position. That covers the delta generators and an event's pseudo-random engine. A ONE draw takes the next number modulo the list length. K_OF_N takes the first K elements of a Fisher–Yates shuffle driven by the stream.
- **Process code.** What a process's `Run` does is the program's own code. Here it is a `Host` oracle that says, for the process and the clock, whether the process ends the simulation and with which exit code.
- **The main loop.** It is bounded by a `fuel` count of passes.

Files (one module each):

- `types.dfy`: GUIDs, times, `Option`, `Stream`, the exit codes, and facts about sequences without duplicates.
- `entities.dfy`: objects, roles, criteria.
- `calendar.dfy`: one calendar.
- `calendar_list.dfy`: the global top and pop, and the as-written scan.
- `registry.dfy`: the simulation state and its registry.
- `lifecycle.dfy`: scheduling and termination of an object.
- `selection.dfy`: the field and mode filters.
- `event.dfy`: an event's run.
- `loop.dfy`: one pass of the main loop, the loop itself and `Run`.

## Model

| member | source | states |
|---|---|---|
| Calendar.Later | Calendar.cpp:10-13 | The queue's comparator: an object sorts behind another exactly when it is due strictly later. |
| Calendar.LaterIsStrictWeakOrder | Calendar.cpp:10-13 | The comparator is a strict weak order, as a priority queue needs. No object sorts behind itself, the order is asymmetric and transitive, and two objects neither of which sorts behind the other are due at the same time. |
| Calendar.TopIndex | Calendar.cpp:10-13 | Under the comparator "due strictly later sorts behind", no element sorts before the calendar's top. Every element inserted before it is due strictly later, so a tie goes to the earliest inserted. |
| Calendar.Top | Calendar.h:26 | There is no top exactly when the calendar is empty. Otherwise the top is an element of the calendar, and no element is due before it. |
| Calendar.Pop | Calendar.h:26 | Popping leaves one element fewer. The elements left, plus the top, are exactly the old contents. |
| Calendar.Push | SimulationObject.cpp:85-86 | A push adds exactly one occurrence of the object to the calendar's contents. |
| Calendar.Find | Calendar.cpp:24-29 | The search loop stops at the first position holding the GUID, or at the end when the GUID is absent. |
| Calendar.Remove | Calendar.cpp:21-41 | The result is true iff the GUID is on the calendar. If it is absent, the calendar is unchanged. If it is present, exactly its first occurrence is cut out and the rest keep their order. |
| Calendar.RemoveAfterPush | Calendar.cpp:21-41 | Removing an object that was just pushed onto a calendar not holding it returns true and gives back the old calendar. |
| Calendar.PopIsRemoveTop | Calendar.cpp:21-41 | On a calendar without duplicates, popping the top equals removing the top by GUID. |
| Calendar.RemoveFromNoDup | Calendar.cpp:21-41 | On a calendar without duplicates, removal takes the GUID out completely. Every other object stays, and there are still no duplicates. |
| CalendarList.FirstNonEmpty | Calendar.cpp:46-48 | The first loop of `top`/`pop` stops at the first non-empty calendar, or at the end, having passed only empty ones. |
| CalendarList.AllEmpty | Calendar.cpp:100-107 | `all_empty` is true iff every calendar of the list is empty. |
| CalendarList.Dominant | Calendar.cpp:57-67 | The second scan, with empty calendars skipped, switches only to a non-empty calendar whose top is due strictly earlier. It ends at a calendar whose top is due no later than any non-empty calendar it passed. |
| CalendarList.DominantCalendar | Calendar.cpp:43-69 | There is no dominant calendar iff all calendars are empty. Otherwise it is a non-empty calendar whose top is due no later than every other calendar's top, and strictly earlier than the top of every non-empty calendar before it (ties go to the earliest calendar). |
| CalendarList.Top | Calendar.cpp:43-70 | The result is null iff all calendars are empty. Otherwise it is the dominant calendar's top, due no later than any object on any calendar. |
| CalendarList.Pop | Calendar.cpp:72-98 | An all-empty list is unchanged. Otherwise exactly the object `top` returns is removed, from the dominant calendar, and every other calendar is unchanged. |
| CalendarList.ScanStepAsWritten | Calendar.cpp:58-67 | One pass of the second scan as the source writes it (`continue` on an empty calendar without advancing) keeps the scan state well formed. |
| CalendarList.ScanAsWritten | Calendar.cpp:58-67 | Any number of passes of that scan keeps the scan state well formed. |
| CalendarList.AsWrittenScanNeverEnds | Calendar.cpp:60-61 | Once the scan as written meets an empty calendar it never moves again, so its iterator never reaches the end. |
| CalendarList.AsWrittenTopHangsOnTrailingEmptyCalendar | Calendar.cpp:86-89 | For the list "one non-empty calendar, then an empty one", the scan as written is stuck at position 1 whatever the number of passes. The corrected scan picks calendar 0. |
| CalendarList.AsWrittenAgrees | Calendar.cpp:58-67 | When no empty calendar is left to meet, the scan as written reaches the end of the list and picks the calendar the corrected scan picks. So the correction changes only the lists on which the source hangs. |
| Registry.Create | Simulation.cpp:12-16 | A new simulation is valid and empty, with the GUID counter at 1, the clock at 0, no calendars, not running, and exit code OK. |
| Registry.AddCalendar | Simulation.cpp:50-60 | A fresh empty calendar is appended at the end of the list. The earlier calendars and all objects are unchanged. |
| Registry.Terminate | Simulation.cpp:80-87 | The simulation no longer runs. If it was running, the exit code is the one given. If it was not running, nothing changes. |
| Registry.GetSimulationTime | Simulation.cpp:70-73 | The simulation's clock. After a pass of the main loop it reads the time of the object that pass fired (see `Loop.Step`). |
| Registry.TerminateTwice | Simulation.cpp:80-87 | A second Terminate changes nothing, so the first exit code stays. |
| Registry.AddObject | Simulation.cpp:139-152 | The object gets the counter's value as its GUID, above every existing GUID, and the counter moves on by one. The object is found by GUID. It is appended at the end of its type's list and of its class's list. Every other list of either index is unchanged. |
| Registry.AddKeepsRegistryValid | Simulation.cpp:144-147 | Filing the new GUID in all three indexes keeps the indexes consistent. Every other GUID is in each list exactly as before. |
| Registry.ConsecutiveGuids | Simulation.cpp:151 | Two objects added one after the other get consecutive GUIDs, the first at least 1. |
| Registry.CreateObject | Simulation.h:70-84 | The argument class is applied only when the object's own class is unspecified. The object is attached to this simulation and registered, so lookup by its new GUID finds it. Every earlier object is unchanged. |
| Registry.RemoveAll | Simulation.cpp:154-163 | Erasing every entry equal to the GUID leaves a subsequence of the list: the other entries keep their order and each keeps its number of occurrences, while the GUID occurs zero times. A list without the GUID is unchanged, and a list without duplicates stays without duplicates. |
| Registry.RemoveObject | Simulation.cpp:165-177 | The object leaves the GUID index, and no entry with its GUID remains in any type or class list. Every other GUID is listed as before. An unregistered object leaves the simulation unchanged. |
| Registry.RemoveKeepsTypeIndex | Simulation.cpp:170-172 | Removal from the type lists keeps the type index consistent with the smaller GUID index. |
| Registry.RemoveKeepsClassIndex | Simulation.cpp:174-176 | Removal from the class lists keeps the class index consistent with the smaller GUID index. |
| Registry.RemoveAfterAdd | Simulation.cpp:139-177 | Removing a just-added object makes it unreachable from every index. Every other object is found by type and class exactly as before the add. |
| Registry.GetObjectByGuid | Simulation.cpp:179-186 | The lookup finds exactly the registered GUIDs. Any other GUID gives none. |
| Registry.GetObjectsByType | Simulation.cpp:188-195 | The result is exactly the registered objects of that type, each listed once, and an empty list when there are none. |
| Registry.GetObjectsByClass | Simulation.cpp:197-204 | The result is exactly the registered objects of that class, each listed once, and an empty list when there are none. |
| Registry.GetAllObjects | Simulation.cpp:206-214 | The result is every registered object, in strictly ascending GUID order, so each appears once. |
| Lifecycle.OnlyOnPointedCalendar | SimulationObject.cpp:85-86 | In a valid simulation an object sits only on the calendar it refers to. |
| Lifecycle.Unlink | SimulationObject.cpp:69-71 | The object is taken off the calendar it refers to and afterwards sits on no calendar. No other object's calendar entries change, and the simulation stays valid. |
| Lifecycle.Schedule | SimulationObject.cpp:65-87 | The object is first taken off its calendar. A relative schedule of a detached object then stops, with the records unchanged and the object on no calendar. Otherwise the time is `t`, or the clock plus `t` when relative. The calendar reference names `cal`, and the object sits exactly once on that calendar and on no other. Nothing else changes. |
| Lifecycle.Place | SimulationObject.cpp:85-86 | An object on no calendar gets its time and calendar reference, and then sits exactly once on that calendar and on no other. |
| Lifecycle.ClearScheduleInfo | SimulationObject.cpp:89-93 | The time becomes 0 and the calendar reference is cleared. Nothing else about the object or the simulation changes. |
| Lifecycle.Terminate | SimulationObject.cpp:105-125 | A detached object is left alone. An attached one ends up on no calendar with a cleared schedule. It is out of the GUID, type and class indexes, and detached. Other objects and their calendar entries are unchanged. |
| Lifecycle.Unschedule | SimulationObject.cpp:113-119 | The object is taken off its calendar and its time and calendar reference are cleared, and nothing else changes. |
| Lifecycle.TerminateTwice | SimulationObject.cpp:105-109 | A second Terminate of the same object is a no-op. |
| Lifecycle.WithGenerator | SimulationObject.h:60 | Attaching (or detaching) a generator changes only that field. |
| Lifecycle.HasPeriodicSchedule | SimulationObject.cpp:127-130 | An object has a periodic schedule exactly when a delta generator is attached. |
| Lifecycle.PeriodicScheduleLifetime | SimulationObject.cpp:127-160 | An object has a periodic schedule after SchedulePeriodic, still has it after NextPeriodicSchedule, and no longer has it after CancelPeriodicSchedule. |
| Lifecycle.NextPeriodicSchedule | SimulationObject.cpp:132-138 | Without a generator nothing changes. With one, the next delta is drawn. An attached object is scheduled that far past the clock on the given calendar; a detached one ends up on no calendar. |
| Lifecycle.CancelPeriodicSchedule | SimulationObject.cpp:140-160 | Without a generator nothing changes, even when removal is asked for. Otherwise the generator is detached. When asked, the object is also taken off its calendar and its schedule is cleared; when not asked, the calendars and its schedule are unchanged. |
| Lifecycle.SchedulePeriodic | SimulationObject.h:56-63 | A generator is attached, replacing any earlier one. An attached object is scheduled on the given calendar at the clock when `initialFire` is set. Otherwise it is scheduled after the generator's first delta, which is consumed. |
| Lifecycle.ScheduleKeepsCalendarRefsExact | SimulationObject.cpp:65-87 | Schedule keeps every calendar reference naming a calendar its object sits on, except in the early return: a relative schedule of a detached object that refers to a calendar. |
| Lifecycle.UnscheduleKeepsCalendarRefsExact | SimulationObject.cpp:113-119 | Taking an object off its calendar and clearing its schedule keeps every calendar reference exact. |
| Lifecycle.TerminateKeepsCalendarRefsExact | SimulationObject.cpp:105-125 | Terminate keeps every calendar reference exact. |
| Lifecycle.CancelPeriodicScheduleKeepsCalendarRefsExact | SimulationObject.cpp:140-160 | CancelPeriodicSchedule keeps every calendar reference exact, with or without removal from the calendar. |
| Lifecycle.NextPeriodicScheduleKeepsCalendarRefsExact | SimulationObject.cpp:132-138 | NextPeriodicSchedule keeps every calendar reference exact, unless the object is detached and still refers to a calendar (the stale case of Schedule). |
| Lifecycle.SchedulePeriodicKeepsCalendarRefsExact | SimulationObject.h:56-63 | SchedulePeriodic keeps every calendar reference exact, unless the object is detached and still refers to a calendar. |
| Lifecycle.DetachedRelativeScheduleLeavesStaleRef | SimulationObject.cpp:70-80 | A relative Schedule of a detached object that sits on a calendar leaves its calendar reference naming a calendar it no longer sits on. |
| Selection.Matches | Event.cpp:124-134 | The criterion's field test compares the object's GUID, type or class with the parameter. |
| Selection.FieldFilter | Event.cpp:120-138 | The result is a subsequence of the list that keeps exactly the elements whose GUID, type or class equals the parameter, each as often as it occurred. A list without duplicates gives a result without duplicates. |
| Selection.GuidCriterionSelectsAtMostOne | Event.cpp:126-127 | On a list without duplicates, a GUID criterion keeps at most one object, the one with that GUID. |
| Selection.FieldFilterKeepsMatching | Event.cpp:120-138 | A list whose elements all match is left as it is. |
| Selection.FieldFilterIdempotent | Event.cpp:120-138 | Filtering twice by the same field equals filtering once. |
| Selection.Swap | Event.cpp:179-182 | Exchanging two positions permutes the list and leaves every other position alone. |
| Selection.Shuffle | Event.cpp:179-182 | The shuffle is a permutation of the list. |
| Selection.ModeSelection | Event.cpp:140-195 | ALL keeps the list. ONE keeps a list of at most one element; otherwise it keeps exactly one element of the list. K_OF_N with K = 0 empties the list, with K at least the length keeps it, and otherwise keeps exactly K elements. The result is always a sub-multiset of the input, so from a list without duplicates K_OF_N keeps K distinct objects. |
| Selection.ModeSelectionIdempotent | Event.cpp:140-195 | A mode filter applied to its own output keeps it and draws nothing. |
| SimEvent.MatchesFromEach | Event.cpp:82-92 | An object passes the criteria's fields from position `i` on iff it passes each of them. |
| SimEvent.IndexLookup | Event.cpp:57-76 | The first criterion's registry lookup yields exactly the registered objects whose field equals the parameter, each once. |
| SimEvent.Refine | Event.cpp:82-92 | The generic loop only shrinks the list, as a sub-multiset. What it keeps passes every field from `i` on. A non-empty result means every criterion ran. With every mode ALL, it keeps exactly the candidates passing all fields. A list without duplicates stays without duplicates. |
| SimEvent.CutLoopStopsAtFirstEmpty | Event.cpp:82-92 | A loop over any filtering step that breaks as soon as the list is empty returns what the full pipeline of steps returns up to its last step, and every step before that last one left a non-empty list. |
| SimEvent.RefineIsCutLoop | Event.cpp:82-92 | The generic criteria loop is that breaking loop, with each step a criterion's field filter followed by its mode filter. |
| SimEvent.RefineStopsAtFirstEmpty | Event.cpp:82-92 | The criteria loop stops at the first criterion that leaves the list empty: its result and engine are those of applying every criterion up to the one it stopped at, and every earlier criterion left a non-empty list. |
| SimEvent.SelectTargets | Event.cpp:47-95 | Without criteria the targets are every registered object, in ascending GUID order, and nothing is drawn. With criteria, every target is registered and passes every field, and the targets are drawn without repetition from the first lookup. With every mode ALL, the targets are exactly the registered objects passing every field. No object is selected twice. A first criterion in ONE mode yields at most one target, and one in K_OF_N mode at most K. |
| SimEvent.FirstCriterionReappliedHarmlessly | Event.cpp:79-84 | The generic loop applies the first criterion again after its own lookup and mode filter. That second application keeps the list and draws nothing, so the selection is the same as applying each criterion once. |
| SimEvent.RefineSkipsSatisfiedCriterion | Event.cpp:82-92 | When the list passes the first criterion's field and mode filter unchanged, the loop's first pass is a no-op. |
| SimEvent.Dispatches | Event.cpp:104-111 | There is one dispatch per target, in target order, and exactly the process targets receive the event. |
| SimEvent.FireEvent | Event.cpp:38-118 | A detached event does nothing. An attached event dispatches to its selected targets in order and keeps its criteria. It terminates itself iff it has neither a generator nor a calendar. Nothing about other objects changes. |
| SimEvent.FireEventKeepsCalendarRefsExact | Event.cpp:38-118 | Firing an event keeps every calendar reference exact. |
| SimEvent.Settle | Event.cpp:115-117 | After dispatching, the event survives and stays registered when it has a generator or a calendar. Otherwise it is detached and out of the registry. |
| SimEvent.Dispose | Event.cpp:115-117 | The event terminates itself iff it is attached with neither a generator nor a calendar. Otherwise nothing changes. |
| SimEvent.AddSelectionCriteria | Event.cpp:26-36 | Exactly one criterion is appended at the end, and the earlier ones keep their order. |
| SimEvent.CriteriaAfterRunAsWritten | Event.cpp:52-84 | As written, entry 0 of the criteria ends up holding the last criterion processed and the rest are kept. The criteria are unchanged iff that criterion equals the first. |
| SimEvent.AsWrittenCriteriaDrift | Event.cpp:52-84 | The criteria "type is process; class is 5" select a class-5 process and not a class-5 event. After one firing as written they read "class is 5" twice and select the event too. |
| Loop.PopIsUnlinkOfTop | Calendar.cpp:72-98 | Popping the global top removes the top object, by GUID, from the calendar it refers to. |
| Loop.RunObject | Simulation.cpp:124-126 | A process's hook either does nothing or terminates the simulation with its code, and an event fires. A process's pass leaves the objects, the calendars and the registry as they were. The run flag and the exit code change only when the simulation runs and a process's hook returns a code. |
| Loop.TakeTop | Simulation.cpp:110-124 | A pass pops the global top, sets the clock to its time (which precedes no scheduled object) and clears its schedule. No other object changes. |
| Loop.Reschedule | Simulation.cpp:121-130 | An attached periodic object is scheduled again, by the drawn delta past the clock, on the calendar it fired from. A detached periodic one ends on no calendar, and a non-periodic one is left alone. |
| Loop.Due | Calendar.cpp:43-70 | The object a pass fires sits on a calendar and is due no later than any scheduled object. |
| Loop.Step | Simulation.cpp:80-131 | One pass fires the due object, and afterwards the simulation time is its time. The trace entry records whether that object is a process. If the simulation runs and the object is a process whose hook returns a code, the run stops with that code. Otherwise (an event, a hook that returns nothing, or a stopped simulation) the run flag and exit code are unchanged. |
| Loop.StepTouchesOnlyDue | Simulation.cpp:110-131 | A pass changes no object other than the one it fires, neither its record nor its calendar entries. |
| Loop.StepReschedulesDue | Simulation.cpp:119-131 | After a pass, an attached periodic object is on the calendar it fired from, at the clock plus its next delta. Any other fired object is on no calendar, and an attached non-periodic event has terminated itself. |
| Loop.StepUnregistersOnlyDisposed | Simulation.cpp:110-131 | The loop unregisters nothing itself. A pass takes the fired object off the GUID index exactly when it is an attached event without a periodic schedule. Every other pass leaves the registry's indexes and GUID counter as they were. |
| Loop.StepIndexesLoseDisposed | Simulation.cpp:110-131 | After a pass, every type list and class list holds what it held before, less the object the pass disposed of, if any. |
| Loop.StepKeepsNoPastSchedules | Simulation.cpp:110-131 | If no object is scheduled before the clock, a pass keeps it so, and the clock does not go back. |
| Loop.StepKeepsCalendarRefsExact | Simulation.cpp:110-131 | A pass keeps every calendar reference exact. |
| Loop.DueNotBefore | Simulation.cpp:110-115 | With nothing scheduled in the past, the due object is not in the past, and no scheduled object is due before it. |
| Loop.OthersNotBefore | Simulation.cpp:110-131 | If only the fired object changed and no other scheduled object precedes the new clock, nothing is scheduled in the past. |
| Loop.RunLoop | Simulation.cpp:99-132 | The loop stops early only when every calendar is empty or the run was stopped. It does nothing when not running or all empty. If the run is still going at the end, no fired process's hook returned a code, and the exit code is the initial one. If a running loop stopped, the last pass, and no earlier one, fired a process whose hook returned a code, and that code is the exit code. With nothing scheduled in the past, the trace's times are non-decreasing and within the start and final clocks. Exact calendar references stay exact. |
| Loop.QuietEndedByEach | Simulation.cpp:80-132 | The recursive "no hook ended the run" and "the last pass ended the run with this code" predicates equal their pointwise readings. |
| Loop.EndedByIsNotQuiet | Simulation.cpp:80-87 | A trace ended by a hook is not quiet, and the code it ended with is unique. |
| Loop.TimesWithinEach | Simulation.cpp:110-115 | The recursive "fired in order within bounds" predicate is equivalent to its pointwise reading. |
| Loop.RunLoopTimesMonotone | Simulation.cpp:99-132 | With nothing scheduled in the past, the loop fires objects in non-decreasing time order, never before the starting clock and never after the final one. |
| Loop.Run | Simulation.cpp:89-137 | Afterwards the simulation no longer runs. `Run` returns OK when no fired process's hook returned a code. Otherwise it returns the code of the one hook that did, on the last pass. It stops early only when every calendar is empty or such a hook stopped it. An empty schedule returns OK at once. |
| Loop.RunKeepsCalendarRefsExact | Simulation.cpp:89-137 | A whole run keeps every calendar reference exact. |
| Loop.WithRunState | Simulation.cpp:94-97 | Setting the run flag and exit code keeps the simulation valid. The objects, calendars, clock and registry indexes are unchanged. |

## Left out

- Logging, stepped mode (waiting for a key press), and the `random_device` true random number: these are input and output only.
- The generator distributions and the engine's draw algorithm. Every number source is a `Stream` of naturals. A ONE draw is the next number modulo the list length, and K_OF_N is a Fisher–Yates shuffle driven by the stream. The real draw order and bias are not modelled.
- `std::priority_queue` heap layout and the `make_heap` after a removal. A calendar is its contents in insertion order, and among equal times the earliest inserted object is on top; the source leaves that choice to the heap.
- Ownership and lifetime (`shared_ptr`, `weak_ptr`): objects live in an arena keyed by GUID, and the simulation back-reference is the `attached` flag.
- `dynamic_cast` in `ToProcess` and `ToEvent`: the object's role tag is used instead.
- The user hooks (`SimProcess::Run`, `ReceiveEvent`, `FilterObjects`, `BeforeExecute`, `AfterExecute`, `ExecuteOn`). A process's `Run` is the `Host` oracle, which may end the simulation with an exit code. The event hooks are the identity, and the dispatch list records each `ExecuteOn` and `ReceiveEvent` call.
- Loop.RunObject: a process hook can do nothing but terminate the simulation. In the source it may also schedule or terminate objects, which this model does not cover.
- The untagged union of a criterion's parameter, and the truncation of the class parameter to 32 bits: a criterion's field is a tagged variant with an unbounded class.
- 64-bit wrap-around of GUIDs and times: both are unbounded naturals.
- The `Terminate` initiator and `GetTerminateInitiator`. Simulation.h declares them, but Simulation.cpp does not implement them.
- Registry.AddCalendar: the model always appends a fresh, empty calendar. The source pushes whatever calendar pointer it is given, which may already be in the list or already hold objects. A calendar shared by two list positions, or holding objects not registered in this simulation, would break the invariant that each object sits on at most one calendar and is known to the registry.
- Registry.AddObject: a new object's scheduled time is 0. The source's constructor leaves `m_simTimeNext` uninitialised until the object is first scheduled.
- Registry.Create: the running flag and exit code start as "not running" and OK. The source leaves them uninitialised until the first `Run`.
- Calendars that are not in the simulation's calendar list: a calendar is named by its position in the list.
- Objects constructed outside `CreateObject`, and adding the same object twice.
- Loop.Run: it is bounded by `fuel` passes. A run whose schedule never empties, with a periodic object and no hook stopping it, is only modelled up to that bound.
- Selection.ModeSelection: K is an unbounded natural, not the source's 32-bit integer.

## Findings

| source | as written | input that shows it | evidently intended | confidence | as-written member | corrected member |
|---|---|---|---|---|---|---|
| Calendar.cpp:60-61, Calendar.cpp:88-89 | The second scan of `top` and `pop` runs `continue` on an empty calendar without advancing the iterator. | A list holding a non-empty calendar followed by an empty one: the scan stays at the empty calendar forever. | Skip empty calendars and go on with the next one. | high; not executed | CalendarList.AsWrittenTopHangsOnTrailingEmptyCalendar | CalendarList.DominantCalendar |
| Event.cpp:52, Event.cpp:84 | `crit` is a reference to the first criterion, so `crit = m_criterias[i]` overwrites entry 0 with every later criterion. | Criteria [type is process, ALL; class is 5, ALL] with a class-5 process and a class-5 event. After one firing the criteria read [class is 5; class is 5], and the event selects itself. | The criteria stay as added, so every firing selects by the same criteria. | high; not executed | SimEvent.AsWrittenCriteriaDrift | SimEvent.FireEvent |

=== FILE: calendar.dfy ===
/**
 * A single calendar: a min-priority queue of scheduled objects ordered by
 * their scheduled time, which also supports removal of an arbitrary object.
 *
 * The calendar is modelled by its contents in insertion order; the queue's
 * heap layout is not modelled.  Its minimum is found by a scan, and among
 * objects with equal times the earliest inserted one is on top.
 */
module Calendar {
  import opened Types

  /** The objects scheduled on a calendar, in insertion order. */
  type Cal = seq<Guid>

  /** Where a calendar reads each object's scheduled time from. */
  type TimeOf = Guid -> Time

  /** The queue's comparator: `a` sorts behind `b` when it is due strictly later. */
  predicate Later(key: TimeOf, a: Guid, b: Guid)
  {
    key(a) > key(b)
  }

  /**
   * The comparator is the strict weak order a priority queue needs: no
   * object sorts behind itself, the order is asymmetric and transitive, and
   * two objects neither of which sorts behind the other are due together.
   */
  lemma LaterIsStrictWeakOrder(key: TimeOf, a: Guid, b: Guid, c: Guid)
    ensures !Later(key, a, a)
    ensures Later(key, a, b) ==> !Later(key, b, a)
    ensures Later(key, a, b) && Later(key, b, c) ==> Later(key, a, c)
    ensures !Later(key, a, b) && !Later(key, b, a) ==> key(a) == key(b)
  {
  }

  /**
   * Position of the calendar's top: no element sorts before it, and every
   * element inserted before it is due strictly later.
   */
  function TopIndex(c: Cal, key: TimeOf): (i: nat)
    requires |c| > 0
    ensures i < |c|
    ensures forall j :: 0 <= j < |c| ==> !Later(key, c[i], c[j])
    ensures forall j :: 0 <= j < i ==> Later(key, c[j], c[i])
    decreases |c|
  {
    if |c| == 1 then 0
    else
      var k := 1 + TopIndex(c[1..], key);
      if Later(key, c[0], c[k]) then k else 0
  }

  /** The object on top of the calendar, if it is not empty. */
  function Top(c: Cal, key: TimeOf): (r: Option<Guid>)
    ensures r.None? <==> |c| == 0
    ensures r.Some? ==> r.value in c && forall j :: 0 <= j < |c| ==> key(r.value) <= key(c[j])
  {
    if |c| == 0 then None else Some(c[TopIndex(c, key)])
  }

  /** Scheduled time of the calendar's top. */
  function TopTime(c: Cal, key: TimeOf): Time
    requires |c| > 0
  {
    key(c[TopIndex(c, key)])
  }

  /** Removes the top object; every other object stays. */
  function Pop(c: Cal, key: TimeOf): (r: Cal)
    requires |c| > 0
    ensures |r| == |c| - 1
    ensures multiset(r) + multiset{Top(c, key).value} == multiset(c)
  {
    var i := TopIndex(c, key);
    assert c == c[..i] + [c[i]] + c[i+1..];
    c[..i] + c[i+1..]
  }

  /** Inserts an object. */
  function Push(c: Cal, g: Guid): (r: Cal)
    ensures multiset(r) == multiset(c) + multiset{g}
  {
    c + [g]
  }

  /** First position at or after `from` that holds `g`, or `|c|` when there is none. */
  function Find(c: Cal, g: Guid, from: nat): (i: nat)
    requires from <= |c|
    ensures from <= i <= |c|
    ensures i < |c| ==> c[i] == g
    ensures forall j :: from <= j < i ==> c[j] != g
    decreases |c| - from
  {
    if from == |c| || c[from] == g then from else Find(c, g, from + 1)
  }

  /**
   * Removes the first element with identity `g` and reports whether there
   * was one; an absent identity leaves the calendar as it was.
   */
  function Remove(c: Cal, g: Guid): (r: (bool, Cal))
    ensures r.0 <==> g in c
    ensures !r.0 ==> r.1 == c
    ensures r.0 ==> |r.1| == |c| - 1 && multiset(r.1) == multiset(c) - multiset{g}
    ensures r.0 ==> exists i :: 0 <= i < |c| && c[i] == g && g !in c[..i] && r.1 == c[..i] + c[i+1..]
  {
    var i := Find(c, g, 0);
    if i < |c| then
      assert c == c[..i] + [c[i]] + c[i+1..];
      assert g !in c[..i];
      (true, c[..i] + c[i+1..])
    else
      (false, c)
  }

  /** Removing an object just pushed onto a calendar that did not hold it gives the calendar back. */
  lemma RemoveAfterPush(c: Cal, g: Guid)
    requires g !in c
    ensures Remove(Push(c, g), g) == (true, c)
  {
    var p := Push(c, g);
    var i := Find(p, g, 0);
    assert p[|c|] == g;
    assert i == |c|;
    assert p[..i] == c;
    assert p[i+1..] == [];
    assert p[..i] + p[i+1..] == c;
    assert Remove(p, g) == (true, p[..i] + p[i+1..]);
  }

  /** On a calendar without duplicates, popping the top is removing it by identity. */
  lemma PopIsRemoveTop(c: Cal, key: TimeOf)
    requires |c| > 0 && NoDup(c)
    ensures Pop(c, key) == Remove(c, Top(c, key).value).1
  {
    var i := TopIndex(c, key);
    var k := Find(c, c[i], 0);
    assert k == i;
  }

  /** Element `j` of `c` with position `i` cut out. */
  lemma CutIndex(c: Cal, i: nat, j: nat)
    requires i < |c| && j < |c| - 1
    ensures (c[..i] + c[i+1..])[j] == if j < i then c[j] else c[j + 1]
  {
  }

  /** On a calendar without duplicates, removal takes the identity out completely. */
  lemma RemoveFromNoDup(c: Cal, g: Guid)
    requires NoDup(c)
    ensures g !in Remove(c, g).1
    ensures NoDup(Remove(c, g).1)
    ensures forall h :: h in Remove(c, g).1 <==> h in c && h != g
  {
    var r := Remove(c, g).1;
    if g in c {
      var i :| 0 <= i < |c| && c[i] == g && g !in c[..i] && r == c[..i] + c[i+1..];
      assert |r| == |c| - 1;
      forall a, b | 0 <= a < b < |r|
        ensures r[a] != r[b]
      {
        CutIndex(c, i, a);
        CutIndex(c, i, b);
      }
      forall h
        ensures h in r <==> h in c && h != g
      {
        if h in r {
          var j :| 0 <= j < |r| && r[j] == h;
          CutIndex(c, i, j);
        }
        if h in c && h != g {
          var j :| 0 <= j < |c| && c[j] == h;
          if j < i {
            CutIndex(c, i, j);
          } else {
            CutIndex(c, i, j - 1);
          }
        }
      }
    }
  }
}

=== FILE: calendar_list.dfy ===
/**
 * The list of calendars a simulation draws from, with one global top/pop:
 * the next object due over all calendars.
 */
module CalendarList {
  import opened Types
  import Calendar

  type CalList = seq<Calendar.Cal>

  /** First non-empty calendar at or after `from`, or `|cals|` when there is none. */
  function FirstNonEmpty(cals: CalList, from: nat): (i: nat)
    requires from <= |cals|
    ensures from <= i <= |cals|
    ensures i < |cals| ==> |cals[i]| > 0
    ensures forall j :: from <= j < i ==> |cals[j]| == 0
    decreases |cals| - from
  {
    if from == |cals| || |cals[from]| > 0 then from else FirstNonEmpty(cals, from + 1)
  }

  /** True iff no calendar of the list holds an object. */
  function AllEmpty(cals: CalList): (r: bool)
    ensures r <==> forall i :: 0 <= i < |cals| ==> |cals[i]| == 0
  {
    FirstNonEmpty(cals, 0) == |cals|
  }

  /**
   * The second scan of `top` and `pop`, with empty calendars skipped: from
   * position `itr` on, a calendar replaces the best one so far only when its
   * top is due strictly earlier.
   */
  function Dominant(cals: CalList, key: Calendar.TimeOf, itr: nat, best: nat): (w: nat)
    requires best < itr <= |cals| && |cals[best]| > 0
    ensures w == best || itr <= w < |cals|
    ensures |cals[w]| > 0
    ensures Calendar.TopTime(cals[w], key) <= Calendar.TopTime(cals[best], key)
    ensures w != best ==> Calendar.TopTime(cals[w], key) < Calendar.TopTime(cals[best], key)
    ensures forall j :: itr <= j < |cals| && |cals[j]| > 0 ==> Calendar.TopTime(cals[w], key) <= Calendar.TopTime(cals[j], key)
    ensures forall j :: itr <= j < w && |cals[j]| > 0 ==> Calendar.TopTime(cals[j], key) > Calendar.TopTime(cals[w], key)
    decreases |cals| - itr
  {
    if itr == |cals| then best
    else if |cals[itr]| == 0 then Dominant(cals, key, itr + 1, best)
    else if Calendar.TopTime(cals[itr], key) < Calendar.TopTime(cals[best], key) then Dominant(cals, key, itr + 1, itr)
    else Dominant(cals, key, itr + 1, best)
  }

  /**
   * The calendar whose top is the global top: none when every calendar is
   * empty; otherwise a non-empty calendar whose top is due no later than the
   * top of any other, and strictly earlier than the top of every non-empty
   * calendar before it in the list (ties go to the earliest calendar).
   */
  function DominantCalendar(cals: CalList, key: Calendar.TimeOf): (r: Option<nat>)
    ensures r.None? <==> AllEmpty(cals)
    ensures r.Some? ==> r.value < |cals| && |cals[r.value]| > 0
    ensures r.Some? ==> forall j :: 0 <= j < |cals| && |cals[j]| > 0 ==>
      Calendar.TopTime(cals[r.value], key) <= Calendar.TopTime(cals[j], key)
    ensures r.Some? ==> forall j :: 0 <= j < r.value && |cals[j]| > 0 ==>
      Calendar.TopTime(cals[j], key) > Calendar.TopTime(cals[r.value], key)
  {
    var first := FirstNonEmpty(cals, 0);
    if first == |cals| then None else Some(Dominant(cals, key, first + 1, first))
  }

  /**
   * The next object due over all calendars: none iff all are empty, and
   * otherwise the top of the dominant calendar, due no later than any object
   * on any calendar of the list.
   */
  function Top(cals: CalList, key: Calendar.TimeOf): (r: Option<Guid>)
    ensures r.None? <==> AllEmpty(cals)
    ensures r.Some? ==> r == Calendar.Top(cals[DominantCalendar(cals, key).value], key)
    ensures r.Some? ==> forall i, k :: 0 <= i < |cals| && 0 <= k < |cals[i]| ==> key(r.value) <= key(cals[i][k])
  {
    match DominantCalendar(cals, key)
    case None => None
    case Some(w) =>
      var t := Calendar.Top(cals[w], key);
      assert forall i, k :: 0 <= i < |cals| && 0 <= k < |cals[i]| ==> key(t.value) <= key(cals[i][k]) by {
        forall i, k | 0 <= i < |cals| && 0 <= k < |cals[i]|
          ensures key(t.value) <= key(cals[i][k])
        {
          assert Calendar.TopTime(cals[i], key) <= key(cals[i][k]);
        }
      }
      t
  }

  /**
   * Removes the global top from the calendar it sits on; every other calendar
   * is left as it was, and an all-empty list is left unchanged.
   */
  function Pop(cals: CalList, key: Calendar.TimeOf): (r: CalList)
    ensures |r| == |cals|
    ensures AllEmpty(cals) ==> r == cals
    ensures !AllEmpty(cals) ==>
      var w := DominantCalendar(cals, key).value;
      && multiset(r[w]) + multiset{Top(cals, key).value} == multiset(cals[w])
      && forall j :: 0 <= j < |cals| && j != w ==> r[j] == cals[j]
  {
    match DominantCalendar(cals, key)
    case None => cals
    case Some(w) => cals[w := Calendar.Pop(cals[w], key)]
  }

  /** Position of the second scan loop of `top` and `pop`, and the best calendar met so far. */
  datatype Scan = Scan(itr: nat, best: nat)

  ghost predicate ScanOk(cals: CalList, st: Scan)
  {
    st.itr <= |cals| && st.best < |cals| && |cals[st.best]| > 0
  }

  /**
   * One pass of that loop as the source writes it: on an empty calendar the
   * pass ends with `continue` before the iterator is advanced.
   */
  function ScanStepAsWritten(cals: CalList, key: Calendar.TimeOf, st: Scan): (r: Scan)
    requires ScanOk(cals, st) && st.itr < |cals|
    ensures ScanOk(cals, r)
  {
    if |cals[st.itr]| == 0 then st
    else if Calendar.TopTime(cals[st.itr], key) < Calendar.TopTime(cals[st.best], key) then Scan(st.itr + 1, st.itr)
    else Scan(st.itr + 1, st.best)
  }

  /** Up to `n` passes of the loop as written, stopping when the iterator reaches the end. */
  function ScanAsWritten(cals: CalList, key: Calendar.TimeOf, st: Scan, n: nat): (r: Scan)
    requires ScanOk(cals, st)
    ensures ScanOk(cals, r)
    decreases n
  {
    if n == 0 || st.itr == |cals| then st
    else ScanAsWritten(cals, key, ScanStepAsWritten(cals, key, st), n - 1)
  }

  /**
   * Once the loop as written reaches an empty calendar it never moves again:
   * after any number of passes the iterator is still short of the end, so
   * the loop does not terminate.
   */
  lemma {:induction false} AsWrittenScanNeverEnds(cals: CalList, key: Calendar.TimeOf, st: Scan, n: nat)
    requires ScanOk(cals, st) && st.itr < |cals| && |cals[st.itr]| == 0
    ensures ScanAsWritten(cals, key, st, n) == st
    ensures ScanAsWritten(cals, key, st, n).itr < |cals|
    decreases n
  {
    if n > 0 {
      assert ScanStepAsWritten(cals, key, st) == st;
      AsWrittenScanNeverEnds(cals, key, st, n - 1);
    }
  }

  /**
   * Where no empty calendar is left to meet, the loop as written ends after
   * one pass per remaining calendar and picks what the corrected scan picks:
   * the two differ only on the lists where the source hangs.
   */
  lemma {:induction false} AsWrittenAgrees(cals: CalList, key: Calendar.TimeOf, st: Scan, n: nat)
    requires ScanOk(cals, st) && st.best < st.itr
    requires forall j :: st.itr <= j < |cals| ==> |cals[j]| > 0
    requires n >= |cals| - st.itr
    ensures ScanAsWritten(cals, key, st, n).itr == |cals|
    ensures ScanAsWritten(cals, key, st, n).best == Dominant(cals, key, st.itr, st.best)
    decreases |cals| - st.itr
  {
    if st.itr < |cals| {
      AsWrittenAgrees(cals, key, ScanStepAsWritten(cals, key, st), n - 1);
    }
  }

  /**
   * A concrete list that hangs the loop as written: a non-empty calendar
   * followed by an empty one.  The corrected scan picks the first calendar.
   */
  lemma AsWrittenTopHangsOnTrailingEmptyCalendar(key: Calendar.TimeOf, n: nat)
    ensures ScanAsWritten([[1], []], key, Scan(1, 0), n).itr == 1
    ensures DominantCalendar([[1], []], key) == Some(0)
  {
    var cals: CalList := [[1], []];
    assert FirstNonEmpty(cals, 0) == 0;
    AsWrittenScanNeverEnds(cals, key, Scan(1, 0), n);
  }
}

=== FILE: entities.dfy ===
/**
 * The simulation objects (processes and events) and the selection criteria
 * an event carries.  Run-time type information is replaced by a tagged role.
 */
module Entities {
  import opened Types

  /** Kind of a simulation object; the key of the registry's type index. */
  datatype ObjType = Process | Event

  /** The class every object has unless it, or its creator, names another. */
  const ObjectClassNotSpecified: nat := 0

  /** The field an event selection step compares, with the value it looks for. */
  datatype Field = ByGuid(guid: Guid) | ByType(kind: ObjType) | ByClass(cls: nat)

  /** How a selection step narrows what the field comparison kept. */
  datatype Mode = All | One | KOfN(k: nat)

  datatype Criterion = Criterion(field: Field, mode: Mode)

  /**
   * What distinguishes the two kinds of object: an event owns its selection
   * criteria and its own pseudo-random engine.
   */
  datatype Role =
    | ProcessRole
    | EventRole(criteria: seq<Criterion>, rng: Stream)

  /**
   * A simulation object.  `attached` says whether its back-reference to the
   * simulation is set; `time` and `cal` are its schedule (`cal` is the index
   * of its calendar in the simulation's calendar list); `gen` is its periodic
   * delta generator, if any.
   */
  datatype Obj = Obj(
    role: Role,
    cls: nat,
    attached: bool,
    time: Time,
    cal: Option<nat>,
    gen: Option<Stream>)
  {
    function Type(): ObjType
    {
      if role.ProcessRole? then Process else Event
    }
  }
}

=== FILE: event.dfy ===
/**
 * An event's firing: the selection pipeline over the registry (first
 * criterion through the registry's own lookups, every criterion then as a
 * field filter followed by a mode filter, stopping early on an empty list),
 * the dispatch to the selected targets, and the event's self-disposal.
 */
module SimEvent {
  import opened Types
  import opened Entities
  import opened Registry
  import Lifecycle
  import opened Selection

  /** The targets an event selected, its engine afterwards, and the last criterion the loop processed. */
  datatype Selected = Selected(targets: seq<Guid>, rng: Stream, last: nat)

  /** A target of a firing; `receives` says whether it is a process, whose event hook is called. */
  datatype Dispatch = Dispatch(target: Guid, receives: bool)

  /** Object `x`, whose record is `o`, matches the field of every criterion from position `i` on. */
  predicate MatchesFrom(x: Guid, o: Obj, crits: seq<Criterion>, i: nat)
    decreases |crits| - i
  {
    i >= |crits| || (Matches(x, o, crits[i].field) && MatchesFrom(x, o, crits, i + 1))
  }

  /** MatchesFrom is the conjunction of the fields' tests, criterion by criterion. */
  lemma {:induction false} MatchesFromEach(x: Guid, o: Obj, crits: seq<Criterion>, i: nat)
    ensures MatchesFrom(x, o, crits, i) <==> forall j :: i <= j < |crits| ==> Matches(x, o, crits[j].field)
    decreases |crits| - i
  {
    if i < |crits| {
      MatchesFromEach(x, o, crits, i + 1);
    }
  }

  /** Every criterion from position `i` on selects in mode ALL. */
  ghost predicate AllModesAll(crits: seq<Criterion>, i: nat)
  {
    forall j :: i <= j < |crits| ==> crits[j].mode.All?
  }

  /**
   * The registry lookup for the first criterion: the object with the given
   * GUID if it is registered, or the registered objects of the given type
   * or class.
   */
  function IndexLookup(s: Sim, f: Field): (r: seq<Guid>)
    requires RegistryValid(s)
    ensures forall g :: g in r <==> g in s.byGuid && Matches(g, s.objs[g], f)
    ensures NoDup(r)
  {
    match f
    case ByGuid(x) =>
      (match GetObjectByGuid(s, x)
       case Some(g) => [g]
       case None => [])
    case ByType(t) => GetObjectsByType(s, t)
    case ByClass(c) => GetObjectsByClass(s, c)
  }

  /**
   * The generic loop from criterion `i` on: field filter, then mode filter,
   * stopping after the last criterion or as soon as the list is empty.  What
   * is left matches every criterion from `i` on; when every such criterion
   * selects ALL it is exactly the candidates that match them all.
   */
  function Refine(objs: map<Guid, Obj>, crits: seq<Criterion>, i: nat, xs: seq<Guid>, rng: Stream): (r: Selected)
    requires i < |crits|
    requires forall x :: x in xs ==> x in objs
    ensures i <= r.last < |crits|
    ensures multiset(r.targets) <= multiset(xs)
    ensures forall x :: x in r.targets ==> x in xs && MatchesFrom(x, objs[x], crits, i)
    ensures |r.targets| > 0 ==> r.last == |crits| - 1
    ensures AllModesAll(crits, i) ==>
      forall x :: x in r.targets <==> x in xs && MatchesFrom(x, objs[x], crits, i)
    ensures NoDup(xs) ==> NoDup(r.targets)
    decreases |crits| - i
  {
    var ys := FieldFilter(xs, objs, crits[i].field);
    var (zs, rng1) := ModeSelection(ys, crits[i].mode, rng);
    if |zs| == 0 || i == |crits| - 1 then Selected(zs, rng1, i)
    else
      Refine(objs, crits, i + 1, zs, rng1)
  }

  /** A filtering step: criterion `k` applied to a list with the engine in a given state. */
  type StepFn = (nat, seq<Guid>, Stream) -> (seq<Guid>, Stream)

  /**
   * The loop of Refine over an arbitrary step: apply step `i`, stop when the
   * list is empty or `i` is the final one of `n` steps, otherwise go on.
   */
  ghost function CutLoop(step: StepFn, n: nat, i: nat, xs: seq<Guid>, rng: Stream): (r: Selected)
    requires i < n
    ensures i <= r.last < n
    decreases n - i
  {
    var (zs, rng1) := step(i, xs, rng);
    if |zs| == 0 || i == n - 1 then Selected(zs, rng1, i) else CutLoop(step, n, i + 1, zs, rng1)
  }

  /** The reference without the early exit: steps `i` up to (not including) `j`, every one applied. */
  ghost function Pipeline(step: StepFn, i: nat, j: nat, xs: seq<Guid>, rng: Stream): (seq<Guid>, Stream)
    requires i <= j
    decreases j - i
  {
    if i == j then (xs, rng) else var (zs, rng1) := step(i, xs, rng); Pipeline(step, i + 1, j, zs, rng1)
  }

  /**
   * The early exit cuts the reference pipeline at the first empty list: the
   * result is the pipeline's up to `last`, and every step before `last`
   * left a non-empty list.
   */
  lemma {:induction false} CutLoopStopsAtFirstEmpty(step: StepFn, n: nat, i: nat, xs: seq<Guid>, rng: Stream)
    requires i < n
    ensures var r := CutLoop(step, n, i, xs, rng);
      && (r.targets, r.rng) == Pipeline(step, i, r.last + 1, xs, rng)
      && (forall j :: i < j <= r.last ==> |Pipeline(step, i, j, xs, rng).0| > 0)
    decreases n - i
  {
    var (zs, rng1) := step(i, xs, rng);
    if |zs| > 0 && i < n - 1 {
      CutLoopStopsAtFirstEmpty(step, n, i + 1, zs, rng1);
    }
  }

  /** Criterion `k` of `crits` as a step: its field filter then its mode filter (the identity out of range). */
  ghost function CriterionStep(objs: map<Guid, Obj>, crits: seq<Criterion>): StepFn
  {
    (k: nat, xs: seq<Guid>, rng: Stream) =>
      if k < |crits| && (forall x :: x in xs ==> x in objs)
      then ModeSelection(FieldFilter(xs, objs, crits[k].field), crits[k].mode, rng)
      else (xs, rng)
  }

  /** Refine is the generic loop run with the criteria's own steps. */
  lemma {:induction false} RefineIsCutLoop(objs: map<Guid, Obj>, crits: seq<Criterion>, i: nat, xs: seq<Guid>, rng: Stream)
    requires i < |crits|
    requires forall x :: x in xs ==> x in objs
    ensures Refine(objs, crits, i, xs, rng) == CutLoop(CriterionStep(objs, crits), |crits|, i, xs, rng)
    decreases |crits| - i
  {
    var zs := ModeSelection(FieldFilter(xs, objs, crits[i].field), crits[i].mode, rng);
    assert CriterionStep(objs, crits)(i, xs, rng) == zs;
    if |zs.0| > 0 && i < |crits| - 1 {
      RefineIsCutLoop(objs, crits, i + 1, zs.0, zs.1);
    }
  }

  /**
   * Refine stops at the first criterion whose step leaves the list empty:
   * its result is the reference pipeline's up to `last`, every step before
   * `last` left a non-empty list, and (by Refine's own contract) a
   * non-empty result runs to the final criterion.
   */
  lemma RefineStopsAtFirstEmpty(objs: map<Guid, Obj>, crits: seq<Criterion>, i: nat, xs: seq<Guid>, rng: Stream)
    requires i < |crits|
    requires forall x :: x in xs ==> x in objs
    ensures var r := Refine(objs, crits, i, xs, rng);
      var step := CriterionStep(objs, crits);
      && (r.targets, r.rng) == Pipeline(step, i, r.last + 1, xs, rng)
      && (forall j :: i < j <= r.last ==> |Pipeline(step, i, j, xs, rng).0| > 0)
  {
    var step := CriterionStep(objs, crits);
    RefineIsCutLoop(objs, crits, i, xs, rng);
    CutLoopStopsAtFirstEmpty(step, |crits|, i, xs, rng);
    var r := Refine(objs, crits, i, xs, rng);
    var c := CutLoop(step, |crits|, i, xs, rng);
    assert r.targets == c.targets && r.rng == c.rng && r.last == c.last;
  }

  /**
   * The targets of an event with criteria `crits`: every registered object,
   * in ascending GUID order, when there are no criteria; otherwise registered
   * objects matching every criterion's field, drawn from the first lookup
   * without repetition, and exactly the registered objects matching every
   * field when all modes are ALL.  No object is selected twice.
   */
  function SelectTargets(s: Sim, crits: seq<Criterion>, rng: Stream): (r: Selected)
    requires RegistryValid(s)
    ensures forall x :: x in r.targets ==> x in s.byGuid && MatchesFrom(x, s.objs[x], crits, 0)
    ensures |crits| == 0 ==> r.rng == rng && (forall x :: x in r.targets <==> x in s.byGuid)
    ensures |crits| == 0 ==> forall i, j :: 0 <= i < j < |r.targets| ==> r.targets[i] < r.targets[j]
    ensures |crits| > 0 ==> r.last < |crits| && (|r.targets| > 0 ==> r.last == |crits| - 1)
    ensures |crits| > 0 ==> multiset(r.targets) <= multiset(IndexLookup(s, crits[0].field))
    ensures |crits| > 0 && crits[0].mode.One? ==> |r.targets| <= 1
    ensures |crits| > 0 && crits[0].mode.KOfN? ==> |r.targets| <= crits[0].mode.k
    ensures AllModesAll(crits, 0) ==>
      forall x :: x in r.targets <==> x in s.byGuid && MatchesFrom(x, s.objs[x], crits, 0)
    ensures NoDup(r.targets)
  {
    if |crits| == 0 then Selected(GetAllObjects(s), rng, 0)
    else
      var looked := IndexLookup(s, crits[0].field);
      var (xs, rng1) := ModeSelection(looked, crits[0].mode, rng);
      var sel := Refine(s.objs, crits, 0, xs, rng1);
      SubMultisetLength(sel.targets, xs);
      sel
  }

  /**
   * The first criterion is applied once more by the generic loop after its
   * own lookup and mode filter.  That second application keeps the list and
   * draws nothing, so the selection equals applying every criterion once.
   */
  lemma FirstCriterionReappliedHarmlessly(s: Sim, crits: seq<Criterion>, rng: Stream)
    requires RegistryValid(s) && |crits| > 0
    ensures var (xs, rng1) := ModeSelection(IndexLookup(s, crits[0].field), crits[0].mode, rng);
      && FieldFilter(xs, s.objs, crits[0].field) == xs
      && ModeSelection(xs, crits[0].mode, rng1).0 == xs
      && ModeSelection(xs, crits[0].mode, rng1).1 == rng1
      && SelectTargets(s, crits, rng) ==
           if |xs| == 0 || |crits| == 1 then Selected(xs, rng1, 0) else Refine(s.objs, crits, 1, xs, rng1)
  {
    var looked := IndexLookup(s, crits[0].field);
    var (xs, rng1) := ModeSelection(looked, crits[0].mode, rng);
    FieldFilterKeepsMatching(xs, s.objs, crits[0].field);
    ModeSelectionIdempotent(looked, crits[0].mode, rng, rng1);
    RefineSkipsSatisfiedCriterion(s.objs, crits, xs, rng1);
  }

  /**
   * When the list already passes the first criterion's field test and mode
   * filter unchanged, the loop's first pass is a no-op.
   */
  lemma RefineSkipsSatisfiedCriterion(objs: map<Guid, Obj>, crits: seq<Criterion>, xs: seq<Guid>, rng: Stream)
    requires |crits| > 0
    requires forall x :: x in xs ==> x in objs
    requires FieldFilter(xs, objs, crits[0].field) == xs
    requires ModeSelection(xs, crits[0].mode, rng).0 == xs && ModeSelection(xs, crits[0].mode, rng).1 == rng
    ensures Refine(objs, crits, 0, xs, rng) ==
      if |xs| == 0 || |crits| == 1 then Selected(xs, rng, 0) else Refine(objs, crits, 1, xs, rng)
  {
  }

  /** The dispatch list of a firing: one entry per target, in target order. */
  function Dispatches(s: Sim, targets: seq<Guid>): (r: seq<Dispatch>)
    requires forall x :: x in targets ==> x in s.objs
    ensures |r| == |targets|
    ensures forall i :: 0 <= i < |r| ==>
      && r[i].target == targets[i] && r[i].target in targets
      && (r[i].receives <==> s.objs[targets[i]].Type() == Process)
  {
    if |targets| == 0 then []
    else [Dispatch(targets[0], s.objs[targets[0]].Type() == Process)] + Dispatches(s, targets[1..])
  }

  /**
   * SimEvent::Run: a detached event does nothing.  An attached one selects
   * its targets, dispatches to each, keeps its criteria, and terminates
   * itself when it has neither a periodic schedule nor a calendar.
   */
  function FireEvent(s: Sim, g: Guid): (r: (Sim, seq<Dispatch>))
    requires Valid(s) && g in s.objs && s.objs[g].role.EventRole?
    ensures Valid(r.0)
    ensures g in r.0.objs && r.0.objs[g].role.EventRole?
    ensures !s.objs[g].attached ==> r.0 == s && r.1 == []
    ensures s.objs[g].attached ==>
      var o := s.objs[g];
      var sel := SelectTargets(s, o.role.criteria, o.role.rng);
      && |r.1| == |sel.targets|
      && (forall i :: 0 <= i < |r.1| ==>
            && r.1[i].target == sel.targets[i] && r.1[i].target in s.byGuid
            && (r.1[i].receives <==> s.objs[sel.targets[i]].Type() == Process))
      && r.0.objs[g].role.criteria == o.role.criteria
      && r.0.objs[g].role.rng == sel.rng
      && ((Lifecycle.HasPeriodicSchedule(o) || o.cal.Some?) ==>
            Lifecycle.SameRegistry(s, r.0) && r.0.cals == s.cals && r.0.objs[g].attached)
      && ((!Lifecycle.HasPeriodicSchedule(o) && o.cal.None?) ==>
            !r.0.objs[g].attached && g !in r.0.byGuid && r.0.byGuid == s.byGuid - {g})
    ensures Lifecycle.OthersUnchanged(s, r.0, g) && Lifecycle.OtherEntriesUnchanged(s, r.0, g)
    ensures r.0.objs[g].gen == s.objs[g].gen
    ensures r.0.objs[g].cal.Some? ==> r.0.objs[g].cal == s.objs[g].cal
    ensures Lifecycle.HasPeriodicSchedule(s.objs[g]) ==> r.0.objs[g].attached == s.objs[g].attached
    ensures OnSomeCalendar(r.0, g) ==> OnSomeCalendar(s, g)
    ensures r.0.byGuid <= s.byGuid
    ensures r.0.clock == s.clock && r.0.running == s.running && r.0.exitCode == s.exitCode
    ensures r.0.guidNext == s.guidNext
  {
    var o := s.objs[g];
    if !o.attached then (s, [])
    else
      var sel := SelectTargets(s, o.role.criteria, o.role.rng);
      (Settle(s, g, sel.rng), Dispatches(s, sel.targets))
  }

  /** Firing an event keeps every calendar reference exact. */
  lemma FireEventKeepsCalendarRefsExact(s: Sim, g: Guid)
    requires Valid(s) && g in s.objs && s.objs[g].role.EventRole? && Lifecycle.CalendarRefsExact(s)
    ensures Lifecycle.CalendarRefsExact(FireEvent(s, g).0)
  {
    var r := FireEvent(s, g).0;
    if r.objs[g].cal.Some? {
      assert r.cals == s.cals;
      assert g in s.cals[s.objs[g].cal.value];
    }
    Lifecycle.ExactForOthers(s, r, g);
  }

  /**
   * The state after an attached event has dispatched: its engine is left at
   * `rng`, and it terminates itself when it has neither a periodic schedule
   * nor a calendar.
   */
  function Settle(s: Sim, g: Guid, rng: Stream): (r: Sim)
    requires Valid(s) && g in s.objs && s.objs[g].role.EventRole? && s.objs[g].attached
    ensures Valid(r)
    ensures g in r.objs && r.objs[g].role == EventRole(s.objs[g].role.criteria, rng)
    ensures var o := s.objs[g];
      && ((Lifecycle.HasPeriodicSchedule(o) || o.cal.Some?) ==>
            Lifecycle.SameRegistry(s, r) && r.cals == s.cals && r.objs[g].attached)
      && ((!Lifecycle.HasPeriodicSchedule(o) && o.cal.None?) ==>
            !r.objs[g].attached && g !in r.byGuid && r.byGuid == s.byGuid - {g})
    ensures Lifecycle.OthersUnchanged(s, r, g) && Lifecycle.OtherEntriesUnchanged(s, r, g)
    ensures r.objs[g].gen == s.objs[g].gen
    ensures r.objs[g].cal.Some? ==> r.objs[g].cal == s.objs[g].cal
    ensures OnSomeCalendar(r, g) ==> OnSomeCalendar(s, g)
    ensures r.byGuid <= s.byGuid
    ensures r.clock == s.clock && r.running == s.running && r.exitCode == s.exitCode
    ensures r.guidNext == s.guidNext
  {
    var s1 := WithEngine(s, g, rng);
    var s2 := Dispose(s1, g);
    Lifecycle.OthersUnchangedTrans(s, s1, s2, g);
    s2
  }

  /**
   * The end of SimEvent::Run: an attached event with neither a periodic
   * schedule nor a calendar terminates itself; otherwise nothing changes.
   */
  function Dispose(s: Sim, g: Guid): (r: Sim)
    requires Valid(s) && g in s.objs
    ensures Valid(r) && g in r.objs
    ensures r.objs[g].role == s.objs[g].role && r.objs[g].gen == s.objs[g].gen
    ensures r.objs[g].cal.Some? ==> r.objs[g].cal == s.objs[g].cal
    ensures Lifecycle.OthersUnchanged(s, r, g) && Lifecycle.OtherEntriesUnchanged(s, r, g)
    ensures OnSomeCalendar(r, g) ==> OnSomeCalendar(s, g)
    ensures r.byGuid <= s.byGuid
    ensures r.clock == s.clock && r.running == s.running && r.exitCode == s.exitCode
    ensures r.guidNext == s.guidNext
    ensures Lifecycle.HasPeriodicSchedule(s.objs[g]) || s.objs[g].cal.Some? || !s.objs[g].attached ==> r == s
    ensures !Lifecycle.HasPeriodicSchedule(s.objs[g]) && s.objs[g].cal.None? && s.objs[g].attached ==>
      !r.objs[g].attached && r.byGuid == s.byGuid - {g}
  {
    var o := s.objs[g];
    if !Lifecycle.HasPeriodicSchedule(o) && o.cal.None? then Lifecycle.Terminate(s, g) else s
  }

  /** The event's engine replaced by `rng`; nothing else changes. */
  function WithEngine(s: Sim, g: Guid, rng: Stream): (r: Sim)
    requires Valid(s) && g in s.objs && s.objs[g].role.EventRole?
    ensures Valid(r)
    ensures r.objs == s.objs[g := s.objs[g].(role := EventRole(s.objs[g].role.criteria, rng))]
    ensures Lifecycle.OthersUnchanged(s, r, g)
    ensures Lifecycle.SameRegistry(s, r) && r.cals == s.cals
    ensures r.clock == s.clock && r.running == s.running && r.exitCode == s.exitCode
  {
    var o := s.objs[g];
    var o1 := o.(role := EventRole(o.role.criteria, rng));
    Lifecycle.UpdateKeepsValid(s, g, o1);
    s.(objs := s.objs[g := o1])
  }

  /** _AddSelectionCriteria: appends a criterion; the earlier ones keep their order. */
  function AddSelectionCriteria(s: Sim, g: Guid, c: Criterion): (r: Sim)
    requires Valid(s) && g in s.objs && s.objs[g].role.EventRole?
    ensures Valid(r)
    ensures g in r.objs && r.objs[g].role.EventRole?
    ensures r.objs[g].role.criteria == s.objs[g].role.criteria + [c]
    ensures r.objs[g].role.criteria[|s.objs[g].role.criteria|] == c
    ensures forall h :: h in s.objs && h != g ==> h in r.objs && r.objs[h] == s.objs[h]
    ensures Lifecycle.SameRegistry(s, r) && r.cals == s.cals
  {
    var o := s.objs[g];
    var o1 := o.(role := EventRole(o.role.criteria + [c], o.role.rng));
    Lifecycle.UpdateKeepsValid(s, g, o1);
    s.(objs := s.objs[g := o1])
  }

  /**
   * The criteria an event keeps after firing, as the source leaves them: the
   * loop's `crit` is a reference to entry 0, so every assignment to it
   * overwrites entry 0, which ends up holding the last criterion processed.
   */
  function CriteriaAfterRunAsWritten(crits: seq<Criterion>, sel: Selected): (r: seq<Criterion>)
    requires |crits| > 0 && sel.last < |crits|
    ensures |r| == |crits| && r[1..] == crits[1..]
    ensures r[0] == crits[sel.last]
    ensures r == crits <==> crits[0] == crits[sel.last]
  {
    crits[0 := crits[sel.last]]
  }

  /**
   * A registry holding a process `p` of class 5 and an event `e` of class 5.
   * Criteria "type is process, ALL; class is 5, ALL" select the process and
   * not the event.  After one firing as written the criteria read "class is
   * 5" twice, and the next firing selects the event as well; the criteria
   * the model keeps still leave the event out.
   */
  lemma AsWrittenCriteriaDrift(s: Sim, p: Guid, e: Guid, rng: Stream)
    requires RegistryValid(s) && p in s.byGuid && e in s.byGuid
    requires s.objs[p].role.ProcessRole? && s.objs[p].cls == 5
    requires s.objs[e].role.EventRole? && s.objs[e].cls == 5
    ensures var crits := [Criterion(ByType(Process), All), Criterion(ByClass(5), All)];
      var first := SelectTargets(s, crits, rng);
      var drifted := CriteriaAfterRunAsWritten(crits, first);
      && first.last == 1
      && p in first.targets && e !in first.targets
      && drifted == [Criterion(ByClass(5), All), Criterion(ByClass(5), All)]
      && e in SelectTargets(s, drifted, first.rng).targets
      && e !in SelectTargets(s, crits, first.rng).targets
  {
    var crits := [Criterion(ByType(Process), All), Criterion(ByClass(5), All)];
    ProcessesOfClassFive(s, p, e, rng);
    var first := SelectTargets(s, crits, rng);
    ProcessesOfClassFive(s, p, e, first.rng);
    LastClassOverwritesFirst(first);
    ClassFiveTwice(s, e, first.rng);
  }

  /** When the class criterion is the last processed, it overwrites the type criterion. */
  lemma LastClassOverwritesFirst(sel: Selected)
    requires sel.last == 1
    ensures CriteriaAfterRunAsWritten([Criterion(ByType(Process), All), Criterion(ByClass(5), All)], sel)
      == [Criterion(ByClass(5), All), Criterion(ByClass(5), All)]
  {
    var r := CriteriaAfterRunAsWritten([Criterion(ByType(Process), All), Criterion(ByClass(5), All)], sel);
    assert r[0] == Criterion(ByClass(5), All) && r[1] == Criterion(ByClass(5), All);
  }

  /** "Type is process, ALL; class is 5, ALL" takes the process and leaves the event out. */
  lemma ProcessesOfClassFive(s: Sim, p: Guid, e: Guid, rng: Stream)
    requires RegistryValid(s) && p in s.byGuid && e in s.byGuid
    requires s.objs[p].role.ProcessRole? && s.objs[p].cls == 5
    requires s.objs[e].role.EventRole?
    ensures var r := SelectTargets(s, [Criterion(ByType(Process), All), Criterion(ByClass(5), All)], rng);
      r.last == 1 && p in r.targets && e !in r.targets
  {
    var crits := [Criterion(ByType(Process), All), Criterion(ByClass(5), All)];
    assert AllModesAll(crits, 0);
    assert MatchesFrom(p, s.objs[p], crits, 0);
    assert !Matches(e, s.objs[e], crits[0].field);
  }

  /** "Class is 5, ALL" twice takes the event of class 5. */
  lemma ClassFiveTwice(s: Sim, e: Guid, rng: Stream)
    requires RegistryValid(s) && e in s.byGuid
    requires s.objs[e].cls == 5
    ensures e in SelectTargets(s, [Criterion(ByClass(5), All), Criterion(ByClass(5), All)], rng).targets
  {
    var crits := [Criterion(ByClass(5), All), Criterion(ByClass(5), All)];
    assert AllModesAll(crits, 0);
    assert MatchesFrom(e, s.objs[e], crits, 0);
  }

}

=== FILE: lifecycle.dfy ===
/**
 * The life cycle of a simulation object: scheduling onto a calendar
 * (absolute or relative to the clock), clearing its schedule, periodic
 * scheduling from a delta generator, and termination.
 */
module Lifecycle {
  import opened Types
  import opened Entities
  import Calendar
  import opened Registry

  /** Every object other than `g` is untouched, and `g` keeps its identity. */
  ghost predicate OthersUnchanged(s: Sim, r: Sim, g: Guid)
    requires g in s.objs
  {
    && r.objs.Keys == s.objs.Keys
    && (forall h :: h in s.objs && h != g ==> r.objs[h] == s.objs[h])
    && r.objs[g].role.ProcessRole? == s.objs[g].role.ProcessRole?
    && r.objs[g].cls == s.objs[g].cls
  }

  /** The registry's indexes and counter are as they were. */
  ghost predicate SameRegistry(s: Sim, r: Sim)
  {
    r.byGuid == s.byGuid && r.byType == s.byType && r.byClass == s.byClass && r.guidNext == s.guidNext
  }

  /** No calendar changes its contents for any object other than `g`. */
  ghost predicate OtherEntriesUnchanged(s: Sim, r: Sim, g: Guid)
  {
    && |r.cals| == |s.cals|
    && forall i, h :: 0 <= i < |s.cals| && h != g ==> multiset(r.cals[i])[h] == multiset(s.cals[i])[h]
  }

  /** Every calendar reference names a calendar the object actually sits on. */
  ghost predicate CalendarRefsExact(s: Sim)
    requires CalendarsValid(s)
  {
    forall g :: g in s.objs && s.objs[g].cal.Some? ==> g in s.cals[s.objs[g].cal.value]
  }

  /** In a valid simulation an object sits only on the calendar it refers to. */
  lemma OnlyOnPointedCalendar(s: Sim, g: Guid, i: nat)
    requires Valid(s) && i < |s.cals| && g in s.cals[i]
    ensures g in s.objs && s.objs[g].cal == Some(i)
  {
    var k :| 0 <= k < |s.cals[i]| && s.cals[i][k] == g;
  }

  /** Replacing one object's record keeps the simulation valid when its type, class and calendar agree. */
  lemma UpdateKeepsValid(s: Sim, g: Guid, o: Obj)
    requires Valid(s) && g in s.objs
    requires o.Type() == s.objs[g].Type() && o.cls == s.objs[g].cls
    requires o.cal.Some? ==> o.cal.value < |s.cals|
    requires OnSomeCalendar(s, g) ==> o.cal == s.objs[g].cal
    ensures Valid(s.(objs := s.objs[g := o]))
  {
    var r := s.(objs := s.objs[g := o]);
    RegistryUnaffected(s, r);
    forall i, k | 0 <= i < |r.cals| && 0 <= k < |r.cals[i]|
      ensures r.cals[i][k] in r.objs && r.objs[r.cals[i][k]].cal == Some(i)
    {
      if r.cals[i][k] == g {
        assert g in s.cals[i];
      }
    }
  }

  /** Pushing an object that sits on no calendar onto the calendar it points at keeps the simulation valid. */
  lemma PushKeepsValid(s: Sim, g: Guid, cal: nat)
    requires Valid(s) && g in s.objs && cal < |s.cals|
    requires s.objs[g].cal == Some(cal) && !OnSomeCalendar(s, g)
    ensures Valid(s.(cals := s.cals[cal := Calendar.Push(s.cals[cal], g)]))
  {
    var r := s.(cals := s.cals[cal := Calendar.Push(s.cals[cal], g)]);
    RegistryUnaffected(s, r);
    forall i, k | 0 <= i < |r.cals| && 0 <= k < |r.cals[i]|
      ensures r.cals[i][k] in r.objs && r.objs[r.cals[i][k]].cal == Some(i)
    {
      if i == cal && k < |s.cals[cal]| {
        assert r.cals[i][k] == s.cals[i][k];
      }
    }
    assert g !in s.cals[cal];
    forall a, b | 0 <= a < b < |r.cals[cal]|
      ensures r.cals[cal][a] != r.cals[cal][b]
    {
      if b == |s.cals[cal]| {
        assert r.cals[cal][a] == s.cals[cal][a];
      }
    }
  }

  /**
   * Takes the object off the calendar it refers to, if any.  The calendar reference
   * itself is left alone; afterwards the object sits on no calendar.
   */
  function Unlink(s: Sim, g: Guid): (r: Sim)
    requires Valid(s) && g in s.objs
    ensures Valid(r)
    ensures !OnSomeCalendar(r, g)
    ensures r.objs == s.objs && SameRegistry(s, r)
    ensures r.clock == s.clock && r.running == s.running && r.exitCode == s.exitCode
    ensures OtherEntriesUnchanged(s, r, g)
    ensures !OnSomeCalendar(s, g) ==> r.cals == s.cals
  {
    match s.objs[g].cal
    case None =>
      s
    case Some(c) =>
      var r := s.(cals := s.cals[c := Calendar.Remove(s.cals[c], g).1]);
      UnlinkKeepsValid(s, g, c, r);
      r
  }

  lemma UnlinkKeepsValid(s: Sim, g: Guid, c: nat, r: Sim)
    requires Valid(s) && g in s.objs && s.objs[g].cal == Some(c)
    requires r == s.(cals := s.cals[c := Calendar.Remove(s.cals[c], g).1])
    ensures Valid(r)
    ensures !OnSomeCalendar(r, g)
    ensures OtherEntriesUnchanged(s, r, g)
    ensures !OnSomeCalendar(s, g) ==> r.cals == s.cals
  {
    Calendar.RemoveFromNoDup(s.cals[c], g);
    RegistryUnaffected(s, r);
    RemainingEntriesKeepRefs(s, g, c, r);
    if !OnSomeCalendar(s, g) {
      assert g !in s.cals[c];
      assert r.cals == s.cals;
    }
  }

  /** What is left on a calendar after a removal still points at it. */
  lemma RemainingEntriesKeepRefs(s: Sim, g: Guid, c: nat, r: Sim)
    requires Valid(s) && c < |s.cals|
    requires r == s.(cals := s.cals[c := Calendar.Remove(s.cals[c], g).1])
    ensures forall i, k :: 0 <= i < |r.cals| && 0 <= k < |r.cals[i]| ==>
      r.cals[i][k] in r.objs && r.objs[r.cals[i][k]].cal == Some(i)
  {
    Calendar.RemoveFromNoDup(s.cals[c], g);
    forall i, k | 0 <= i < |r.cals| && 0 <= k < |r.cals[i]|
      ensures r.cals[i][k] in r.objs && r.objs[r.cals[i][k]].cal == Some(i)
    {
      if i == c {
        assert r.cals[i][k] in s.cals[c];
        var k' :| 0 <= k' < |s.cals[c]| && s.cals[c][k'] == r.cals[i][k];
      }
    }
  }

  /**
   * Schedule: the object is first taken off its current calendar.  A relative
   * time is counted from the simulation's clock, but only when the object is
   * attached to the simulation; a detached object then stays off every
   * calendar while its time and calendar reference keep their old values.
   * Otherwise the object gets the new time, points at `cal` and sits on it.
   */
  function Schedule(s: Sim, g: Guid, cal: nat, t: Time, relative: bool): (r: Sim)
    requires Valid(s) && g in s.objs && cal < |s.cals|
    ensures Valid(r)
    ensures SameRegistry(s, r) && OthersUnchanged(s, r, g) && OtherEntriesUnchanged(s, r, g)
    ensures r.clock == s.clock && r.running == s.running && r.exitCode == s.exitCode
    ensures r.objs[g].attached == s.objs[g].attached && r.objs[g].gen == s.objs[g].gen
    ensures r.objs[g].role == s.objs[g].role
    ensures relative && !s.objs[g].attached ==> r.objs == s.objs && !OnSomeCalendar(r, g)
    ensures !(relative && !s.objs[g].attached) ==>
      && r.objs[g].time == (if relative then s.clock + t else t)
      && r.objs[g].cal == Some(cal)
      && multiset(r.cals[cal])[g] == 1
      && forall i :: 0 <= i < |r.cals| && i != cal ==> g !in r.cals[i]
  {
    var s1 := Unlink(s, g);
    if relative && !s.objs[g].attached then s1
    else
      var r := Place(s1, g, cal, if relative then s.clock + t else t);
      OtherEntriesTrans(s, s1, r, g);
      r
  }

  /**
   * Gives an object that sits on no calendar the time `t` and the calendar
   * reference `cal`, and pushes it onto that calendar.
   */
  function Place(s: Sim, g: Guid, cal: nat, t: Time): (r: Sim)
    requires Valid(s) && g in s.objs && cal < |s.cals| && !OnSomeCalendar(s, g)
    ensures Valid(r)
    ensures SameRegistry(s, r) && OthersUnchanged(s, r, g) && OtherEntriesUnchanged(s, r, g)
    ensures r.clock == s.clock && r.running == s.running && r.exitCode == s.exitCode
    ensures r.objs[g] == s.objs[g].(time := t, cal := Some(cal))
    ensures multiset(r.cals[cal])[g] == 1
    ensures forall i :: 0 <= i < |r.cals| && i != cal ==> g !in r.cals[i]
  {
    var o := s.objs[g].(time := t, cal := Some(cal));
    UpdateKeepsValid(s, g, o);
    var s1 := s.(objs := s.objs[g := o]);
    PushKeepsValid(s1, g, cal);
    var r := s1.(cals := s1.cals[cal := Calendar.Push(s1.cals[cal], g)]);
    assert g !in s1.cals[cal];
    assert forall i :: 0 <= i < |r.cals| && i != cal ==> g !in r.cals[i];
    r
  }

  /** Calendar contents of other objects unchanged over two stages. */
  lemma OtherEntriesTrans(s: Sim, s1: Sim, r: Sim, g: Guid)
    requires OtherEntriesUnchanged(s, s1, g) && OtherEntriesUnchanged(s1, r, g)
    ensures OtherEntriesUnchanged(s, r, g)
  {
  }

  /** ClearScheduleInfo: the time becomes 0 and the calendar reference is cleared. */
  function ClearScheduleInfo(s: Sim, g: Guid): (r: Sim)
    requires Valid(s) && g in s.objs
    ensures g in r.objs
    ensures r.objs[g].time == 0 && r.objs[g].cal.None?
    ensures r.objs[g].role == s.objs[g].role && r.objs[g].gen == s.objs[g].gen
    ensures r.objs[g].attached == s.objs[g].attached
    ensures SameRegistry(s, r) && OthersUnchanged(s, r, g) && r.cals == s.cals
    ensures r.clock == s.clock && r.running == s.running && r.exitCode == s.exitCode
    ensures !OnSomeCalendar(s, g) ==> Valid(r)
  {
    var o := s.objs[g].(time := 0, cal := None);
    assert !OnSomeCalendar(s, g) ==> Valid(s.(objs := s.objs[g := o])) by {
      if !OnSomeCalendar(s, g) {
        UpdateKeepsValid(s, g, o);
      }
    }
    s.(objs := s.objs[g := o])
  }

  /**
   * Terminate: a detached object is left alone.  An attached one is taken off
   * its calendar, its schedule is cleared, it is removed from the registry
   * and its simulation reference is dropped.
   */
  function Terminate(s: Sim, g: Guid): (r: Sim)
    requires Valid(s) && g in s.objs
    ensures Valid(r)
    ensures g in r.objs
    ensures !s.objs[g].attached ==> r == s
    ensures s.objs[g].attached ==>
      && !OnSomeCalendar(r, g)
      && r.objs[g].cal.None? && r.objs[g].time == 0 && !r.objs[g].attached
      && r.byGuid == s.byGuid - {g}
      && (forall t :: g !in ListOf(r.byType, t))
      && (forall c :: g !in ListOf(r.byClass, c))
    ensures r.objs[g].role == s.objs[g].role && r.objs[g].gen == s.objs[g].gen
    ensures OthersUnchanged(s, r, g) && OtherEntriesUnchanged(s, r, g)
    ensures forall t, h :: h != g ==> (h in ListOf(r.byType, t) <==> h in ListOf(s.byType, t))
    ensures forall c, h :: h != g ==> (h in ListOf(r.byClass, c) <==> h in ListOf(s.byClass, c))
    ensures r.guidNext == s.guidNext
    ensures r.clock == s.clock && r.running == s.running && r.exitCode == s.exitCode
  {
    if !s.objs[g].attached then s else TerminateAttached(s, g)
  }

  /** The attached case of Terminate: unschedule, unregister, detach. */
  function TerminateAttached(s: Sim, g: Guid): (r: Sim)
    requires Valid(s) && g in s.objs && s.objs[g].attached
    ensures Valid(r) && g in r.objs
    ensures !OnSomeCalendar(r, g)
    ensures r.objs[g] == s.objs[g].(cal := None, time := 0, attached := false)
    ensures r.byGuid == s.byGuid - {g}
    ensures forall t :: g !in ListOf(r.byType, t)
    ensures forall c :: g !in ListOf(r.byClass, c)
    ensures OthersUnchanged(s, r, g) && OtherEntriesUnchanged(s, r, g)
    ensures forall t, h :: h != g ==> (h in ListOf(r.byType, t) <==> h in ListOf(s.byType, t))
    ensures forall c, h :: h != g ==> (h in ListOf(r.byClass, c) <==> h in ListOf(s.byClass, c))
    ensures r.guidNext == s.guidNext
    ensures r.clock == s.clock && r.running == s.running && r.exitCode == s.exitCode
  {
    var s2 := Unschedule(s, g);
    var s3 := RemoveObject(s2, g);
    var o3 := s2.objs[g].(attached := false);
    UpdateKeepsValid(s3, g, o3);
    s3.(objs := s3.objs[g := o3])
  }

  /**
   * Takes the object off its calendar and clears its schedule, as Terminate
   * and CancelPeriodicSchedule both do; nothing else changes.
   */
  function Unschedule(s: Sim, g: Guid): (r: Sim)
    requires Valid(s) && g in s.objs
    ensures Valid(r) && !OnSomeCalendar(r, g)
    ensures r.objs == s.objs[g := s.objs[g].(cal := None, time := 0)]
    ensures SameRegistry(s, r) && OtherEntriesUnchanged(s, r, g)
    ensures r.clock == s.clock && r.running == s.running && r.exitCode == s.exitCode
  {
    var s1 := Unlink(s, g);
    var o1 := s.objs[g].(cal := None, time := 0);
    UpdateKeepsValid(s1, g, o1);
    s1.(objs := s1.objs[g := o1])
  }

  /** A second Terminate of the same object is a no-op. */
  lemma TerminateTwice(s: Sim, g: Guid)
    requires Valid(s) && g in s.objs
    ensures Terminate(Terminate(s, g), g) == Terminate(s, g)
  {
  }

  /** Attaches (or detaches) a delta generator; nothing else changes. */
  function WithGenerator(s: Sim, g: Guid, gen: Option<Stream>): (r: Sim)
    requires Valid(s) && g in s.objs
    ensures Valid(r)
    ensures r.objs == s.objs[g := s.objs[g].(gen := gen)]
    ensures SameRegistry(s, r) && OthersUnchanged(s, r, g) && r.cals == s.cals
    ensures r.clock == s.clock && r.running == s.running && r.exitCode == s.exitCode
  {
    UpdateKeepsValid(s, g, s.objs[g].(gen := gen));
    s.(objs := s.objs[g := s.objs[g].(gen := gen)])
  }

  lemma OthersUnchangedTrans(s: Sim, s1: Sim, r: Sim, g: Guid)
    requires g in s.objs && OthersUnchanged(s, s1, g) && OthersUnchanged(s1, r, g)
    ensures OthersUnchanged(s, r, g)
  {
  }

  /**
   * A change confined to `g`, which keeps `g`'s role kind and class, keeps
   * the type and class indexes in step with the GUID index.
   */
  lemma OthersUnchangedIndexes(s: Sim, r: Sim, g: Guid, gone: set<Guid>)
    requires RegistryValid(s) && RegistryValid(r)
    requires g in s.objs && OthersUnchanged(s, r, g) && r.byGuid == s.byGuid - gone
    ensures IndexesLessBy(s, r, gone)
  {
    assert forall h :: h in s.objs ==> r.objs[h].Type() == s.objs[h].Type() && r.objs[h].cls == s.objs[h].cls;
    IndexesFollowGuids(s, r, gone);
  }

  /** HasPeriodicSchedule: a delta generator is attached. */
  predicate HasPeriodicSchedule(o: Obj)
  {
    o.gen.Some?
  }

  /**
   * An object has a periodic schedule from SchedulePeriodic on, keeps it
   * across every NextPeriodicSchedule, and loses it at CancelPeriodicSchedule.
   */
  lemma PeriodicScheduleLifetime(s: Sim, g: Guid, cal: nat, initialFire: bool, gen: Stream, removeFromCalendar: bool)
    requires Valid(s) && g in s.objs && cal < |s.cals|
    ensures var s1 := SchedulePeriodic(s, g, cal, initialFire, gen);
      var s2 := NextPeriodicSchedule(s1, g, cal);
      && HasPeriodicSchedule(s1.objs[g])
      && HasPeriodicSchedule(s2.objs[g])
      && !HasPeriodicSchedule(CancelPeriodicSchedule(s2, g, removeFromCalendar).objs[g])
  {
  }

  /**
   * NextPeriodicSchedule: without a generator nothing happens; otherwise the
   * next delta is drawn and the object is scheduled that far past the clock
   * on `cal`.
   */
  function NextPeriodicSchedule(s: Sim, g: Guid, cal: nat): (r: Sim)
    requires Valid(s) && g in s.objs && cal < |s.cals|
    ensures Valid(r)
    ensures g in r.objs
    ensures !HasPeriodicSchedule(s.objs[g]) ==> r == s
    ensures HasPeriodicSchedule(s.objs[g]) ==>
      var (d, next) := s.objs[g].gen.value.Next();
      && r.objs[g].gen == Some(next)
      && (s.objs[g].attached ==>
            r.objs[g].time == s.clock + d && r.objs[g].cal == Some(cal) && g in r.cals[cal])
      && (!s.objs[g].attached ==> !OnSomeCalendar(r, g))
    ensures SameRegistry(s, r) && OthersUnchanged(s, r, g) && OtherEntriesUnchanged(s, r, g)
    ensures r.objs[g].role == s.objs[g].role && r.objs[g].attached == s.objs[g].attached
    ensures r.clock == s.clock && r.running == s.running && r.exitCode == s.exitCode
  {
    match s.objs[g].gen
    case None => s
    case Some(gen) =>
      var (d, next) := gen.Next();
      var s1 := WithGenerator(s, g, Some(next));
      var r := Schedule(s1, g, cal, d, true);
      OthersUnchangedTrans(s, s1, r, g);
      r
  }

  /**
   * CancelPeriodicSchedule: without a generator nothing happens, whatever
   * `removeFromCalendar` says.  Otherwise the generator is detached and, when
   * asked, the object is also taken off its calendar and its schedule cleared.
   */
  function CancelPeriodicSchedule(s: Sim, g: Guid, removeFromCalendar: bool): (r: Sim)
    requires Valid(s) && g in s.objs
    ensures Valid(r)
    ensures g in r.objs
    ensures !HasPeriodicSchedule(s.objs[g]) ==> r == s
    ensures HasPeriodicSchedule(s.objs[g]) ==> !HasPeriodicSchedule(r.objs[g])
    ensures HasPeriodicSchedule(s.objs[g]) && removeFromCalendar ==>
      !OnSomeCalendar(r, g) && r.objs[g].cal.None? && r.objs[g].time == 0
    ensures HasPeriodicSchedule(s.objs[g]) && !removeFromCalendar ==>
      r.cals == s.cals && r.objs[g].cal == s.objs[g].cal && r.objs[g].time == s.objs[g].time
    ensures SameRegistry(s, r) && OthersUnchanged(s, r, g) && OtherEntriesUnchanged(s, r, g)
    ensures r.objs[g].role == s.objs[g].role && r.objs[g].attached == s.objs[g].attached
    ensures r.clock == s.clock && r.running == s.running && r.exitCode == s.exitCode
  {
    if s.objs[g].gen.None? then s
    else
      var s1 := WithGenerator(s, g, None);
      if !removeFromCalendar then s1
      else
        var r := Unschedule(s1, g);
        OthersUnchangedTrans(s, s1, r, g);
        r
  }

  /**
   * SchedulePeriodic: attaches the generator (replacing any earlier one) and
   * schedules the object on `cal` relative to the clock: at once when
   * `initialFire` is set, otherwise after the generator's first delta, which
   * is consumed.
   */
  function SchedulePeriodic(s: Sim, g: Guid, cal: nat, initialFire: bool, gen: Stream): (r: Sim)
    requires Valid(s) && g in s.objs && cal < |s.cals|
    ensures Valid(r)
    ensures g in r.objs
    ensures HasPeriodicSchedule(r.objs[g])
    ensures r.objs[g].gen == Some(if initialFire then gen else Stream(gen.at, gen.pos + 1))
    ensures s.objs[g].attached ==>
      && r.objs[g].time == s.clock + (if initialFire then 0 else gen.at(gen.pos))
      && r.objs[g].cal == Some(cal)
      && g in r.cals[cal]
    ensures SameRegistry(s, r) && OthersUnchanged(s, r, g) && OtherEntriesUnchanged(s, r, g)
    ensures r.objs[g].role == s.objs[g].role && r.objs[g].attached == s.objs[g].attached
    ensures r.clock == s.clock && r.running == s.running && r.exitCode == s.exitCode
  {
    var (delta, gen') := if initialFire then (0, gen) else gen.Next();
    var s1 := WithGenerator(s, g, Some(gen'));
    var r := Schedule(s1, g, cal, delta, true);
    OthersUnchangedTrans(s, s1, r, g);
    r
  }

  /**
   * When only `g` changed, every other object's calendar reference stays
   * exact; so all are exact when `g`'s is.
   */
  lemma ExactForOthers(s: Sim, r: Sim, g: Guid)
    requires CalendarsValid(s) && CalendarsValid(r) && g in s.objs && CalendarRefsExact(s)
    requires OthersUnchanged(s, r, g) && OtherEntriesUnchanged(s, r, g)
    requires r.objs[g].cal.Some? ==> g in r.cals[r.objs[g].cal.value]
    ensures CalendarRefsExact(r)
  {
    forall h | h in r.objs && r.objs[h].cal.Some?
      ensures h in r.cals[r.objs[h].cal.value]
    {
      if h != g {
        var i := s.objs[h].cal.value;
        assert h in s.cals[i];
        assert multiset(r.cals[i])[h] == multiset(s.cals[i])[h];
      }
    }
  }

  /**
   * Schedule keeps every calendar reference exact, except in the one case
   * where it returns early: a relative schedule of a detached object that
   * refers to a calendar (see DetachedRelativeScheduleLeavesStaleRef).
   */
  lemma ScheduleKeepsCalendarRefsExact(s: Sim, g: Guid, cal: nat, t: Time, relative: bool)
    requires Valid(s) && g in s.objs && cal < |s.cals| && CalendarRefsExact(s)
    requires !(relative && !s.objs[g].attached && s.objs[g].cal.Some?)
    ensures CalendarRefsExact(Schedule(s, g, cal, t, relative))
  {
    var r := Schedule(s, g, cal, t, relative);
    if !(relative && !s.objs[g].attached) {
      assert multiset(r.cals[cal])[g] == 1;
    }
    ExactForOthers(s, r, g);
  }

  /** Unschedule keeps every calendar reference exact. */
  lemma UnscheduleKeepsCalendarRefsExact(s: Sim, g: Guid)
    requires Valid(s) && g in s.objs && CalendarRefsExact(s)
    ensures CalendarRefsExact(Unschedule(s, g))
  {
    ExactForOthers(s, Unschedule(s, g), g);
  }

  /** Terminate keeps every calendar reference exact. */
  lemma TerminateKeepsCalendarRefsExact(s: Sim, g: Guid)
    requires Valid(s) && g in s.objs && CalendarRefsExact(s)
    ensures CalendarRefsExact(Terminate(s, g))
  {
    ExactForOthers(s, Terminate(s, g), g);
  }

  /** CancelPeriodicSchedule keeps every calendar reference exact. */
  lemma CancelPeriodicScheduleKeepsCalendarRefsExact(s: Sim, g: Guid, removeFromCalendar: bool)
    requires Valid(s) && g in s.objs && CalendarRefsExact(s)
    ensures CalendarRefsExact(CancelPeriodicSchedule(s, g, removeFromCalendar))
  {
    var r := CancelPeriodicSchedule(s, g, removeFromCalendar);
    if s.objs[g].gen.Some? && !removeFromCalendar {
      assert s.objs[g].cal.Some? ==> g in s.cals[s.objs[g].cal.value];
    }
    ExactForOthers(s, r, g);
  }

  /**
   * NextPeriodicSchedule keeps every calendar reference exact unless it
   * schedules a detached object that still refers to a calendar.
   */
  lemma NextPeriodicScheduleKeepsCalendarRefsExact(s: Sim, g: Guid, cal: nat)
    requires Valid(s) && g in s.objs && cal < |s.cals| && CalendarRefsExact(s)
    requires s.objs[g].attached || s.objs[g].cal.None?
    ensures CalendarRefsExact(NextPeriodicSchedule(s, g, cal))
  {
    if s.objs[g].gen.Some? {
      var (d, next) := s.objs[g].gen.value.Next();
      var s1 := WithGenerator(s, g, Some(next));
      ExactForOthers(s, s1, g);
      ScheduleKeepsCalendarRefsExact(s1, g, cal, d, true);
    }
  }

  /**
   * SchedulePeriodic keeps every calendar reference exact unless it
   * schedules a detached object that still refers to a calendar.
   */
  lemma SchedulePeriodicKeepsCalendarRefsExact(s: Sim, g: Guid, cal: nat, initialFire: bool, gen: Stream)
    requires Valid(s) && g in s.objs && cal < |s.cals| && CalendarRefsExact(s)
    requires s.objs[g].attached || s.objs[g].cal.None?
    ensures CalendarRefsExact(SchedulePeriodic(s, g, cal, initialFire, gen))
  {
    var (delta, gen') := if initialFire then (0, gen) else gen.Next();
    var s1 := WithGenerator(s, g, Some(gen'));
    ExactForOthers(s, s1, g);
    ScheduleKeepsCalendarRefsExact(s1, g, cal, delta, true);
  }

  /**
   * A relative Schedule of a detached object that sits on a calendar takes it
   * off that calendar but leaves its calendar reference naming it: the reference is stale.
   */
  lemma DetachedRelativeScheduleLeavesStaleRef(s: Sim, g: Guid, cal: nat, t: Time)
    requires Valid(s) && g in s.objs && cal < |s.cals|
    requires !s.objs[g].attached && s.objs[g].cal.Some?
    ensures var r := Schedule(s, g, cal, t, true);
      && r.objs[g].cal == s.objs[g].cal
      && g !in r.cals[s.objs[g].cal.value]
      && !CalendarRefsExact(r)
  {
    var r := Schedule(s, g, cal, t, true);
    assert !OnSomeCalendar(r, g);
    var i := s.objs[g].cal.value;
    assert g !in r.cals[i];
  }
}

=== FILE: loop.dfy ===
/**
 * The simulation's main loop: while some calendar holds an object and the
 * simulation runs, the globally earliest object is popped, the clock jumps
 * to its time, its schedule is cleared, it runs, and a periodic object is
 * scheduled again on the calendar it came from.
 *
 * What a process does when it runs is the program's own code; here it is a
 * `Host` oracle that says, for the process and the clock, whether it ends
 * the simulation and with which exit code.  The loop is bounded by `fuel`.
 */
module Loop {
  import opened Types
  import opened Entities
  import Calendar
  import CalendarList
  import opened Registry
  import Lifecycle
  import SimEvent

  /** A process's run hook: `Some(code)` when it calls Simulation::Terminate with `code`. */
  type Host = (Guid, Time) -> Option<int>

  /**
   * One pass of the loop: the object that fired, at which time, whether it
   * is a process, and the event's dispatches.
   */
  datatype Fired = Fired(guid: Guid, time: Time, process: bool, dispatches: seq<SimEvent.Dispatch>)

  /** The pass fired a process whose hook ended the simulation. */
  predicate Stops(f: Fired, host: Host)
  {
    f.process && host(f.guid, f.time).Some?
  }

  /** No pass of `trace` fired a process whose hook ended the simulation. */
  predicate Quiet(trace: seq<Fired>, host: Host)
  {
    |trace| == 0 || (!Stops(trace[0], host) && Quiet(trace[1..], host))
  }

  /**
   * The first pass of `trace` that fired a process whose hook ended the
   * simulation is its last pass, and the hook returned `code`.
   */
  predicate EndedBy(trace: seq<Fired>, host: Host, code: int)
  {
    && |trace| > 0
    && if Stops(trace[0], host) then |trace| == 1 && host(trace[0].guid, trace[0].time) == Some(code)
       else EndedBy(trace[1..], host, code)
  }

  /** No object on any calendar is due before the clock. */
  ghost predicate NoPastSchedules(s: Sim)
  {
    forall i, k :: 0 <= i < |s.cals| && 0 <= k < |s.cals[i]| ==>
      s.cals[i][k] in s.objs && s.objs[s.cals[i][k]].time >= s.clock
  }

  /**
   * Popping the global top of a valid simulation takes the top object off
   * the calendar it refers to, exactly as removing it by identity does.
   */
  lemma PopIsUnlinkOfTop(s: Sim)
    requires Valid(s) && !CalendarList.AllEmpty(s.cals)
    ensures var key := TimeOf(s);
      var w := CalendarList.DominantCalendar(s.cals, key).value;
      var g := CalendarList.Top(s.cals, key).value;
      && g in s.objs && s.objs[g].cal == Some(w) && g in s.cals[w]
      && CalendarList.Pop(s.cals, key) == s.cals[w := Calendar.Remove(s.cals[w], g).1]
  {
    var key := TimeOf(s);
    var w := CalendarList.DominantCalendar(s.cals, key).value;
    var g := CalendarList.Top(s.cals, key).value;
    Lifecycle.OnlyOnPointedCalendar(s, g, w);
    Calendar.PopIsRemoveTop(s.cals[w], key);
  }

  /** Object::Run: a process consults the host; an event fires. */
  function RunObject(s: Sim, g: Guid, host: Host): (r: (Sim, seq<SimEvent.Dispatch>))
    requires Valid(s) && g in s.objs
    ensures Valid(r.0) && g in r.0.objs
    ensures r.0.objs[g].gen == s.objs[g].gen && r.0.objs[g].role.EventRole? == s.objs[g].role.EventRole?
    ensures r.0.objs[g].cal.Some? ==> r.0.objs[g].cal == s.objs[g].cal
    ensures Lifecycle.HasPeriodicSchedule(s.objs[g]) ==> r.0.objs[g].attached == s.objs[g].attached
    ensures Lifecycle.OthersUnchanged(s, r.0, g) && Lifecycle.OtherEntriesUnchanged(s, r.0, g)
    ensures OnSomeCalendar(r.0, g) ==> OnSomeCalendar(s, g)
    ensures r.0.byGuid <= s.byGuid && r.0.guidNext == s.guidNext && r.0.clock == s.clock
    ensures !(s.running && s.objs[g].role.ProcessRole? && host(g, s.clock).Some?) ==>
      r.0.running == s.running && r.0.exitCode == s.exitCode
    ensures s.objs[g].role.ProcessRole? ==>
      && r.1 == []
      && (host(g, s.clock).Some? && s.running ==> !r.0.running && r.0.exitCode == host(g, s.clock).value)
      && (host(g, s.clock).None? || !s.running ==> r.0.running == s.running && r.0.exitCode == s.exitCode)
    ensures s.objs[g].role.ProcessRole? ==> r.0.objs == s.objs && r.0.cals == s.cals && Lifecycle.SameRegistry(s, r.0)
    ensures s.objs[g].role.EventRole? ==> r == SimEvent.FireEvent(s, g)
  {
    match s.objs[g].role
    case ProcessRole =>
      (match host(g, s.clock)
       case None => s
       case Some(code) => Registry.Terminate(s, code), [])
    case EventRole(_, _) => SimEvent.FireEvent(s, g)
  }

  /**
   * The head of a pass: the global top is popped, the clock jumps to its
   * time and its schedule is cleared.  The new clock precedes no object on
   * any calendar, and nothing about any other object changes.
   */
  function TakeTop(s: Sim): (r: (Sim, Guid, nat))
    requires Valid(s) && !CalendarList.AllEmpty(s.cals)
    ensures Valid(r.0)
    ensures r.1 == CalendarList.Top(s.cals, TimeOf(s)).value
    ensures r.2 == CalendarList.DominantCalendar(s.cals, TimeOf(s)).value && r.2 < |s.cals|
    ensures r.1 in s.objs && r.1 in r.0.objs && s.objs[r.1].cal == Some(r.2)
    ensures r.0.clock == s.objs[r.1].time
    ensures forall i, k :: 0 <= i < |s.cals| && 0 <= k < |s.cals[i]| ==> r.0.clock <= TimeOf(s)(s.cals[i][k])
    ensures r.0.objs[r.1] == s.objs[r.1].(time := 0, cal := None)
    ensures !OnSomeCalendar(r.0, r.1)
    ensures Lifecycle.OthersUnchanged(s, r.0, r.1) && Lifecycle.OtherEntriesUnchanged(s, r.0, r.1)
    ensures Lifecycle.SameRegistry(s, r.0) && r.0.running == s.running && r.0.exitCode == s.exitCode
  {
    var key := TimeOf(s);
    var w := CalendarList.DominantCalendar(s.cals, key).value;
    var g := CalendarList.Top(s.cals, key).value;
    PopIsUnlinkOfTop(s);
    var s1 := s.(cals := CalendarList.Pop(s.cals, key));
    Lifecycle.UnlinkKeepsValid(s, g, w, s1);
    var s2 := s1.(clock := s.objs[g].time);
    (Lifecycle.ClearScheduleInfo(s2, g), g, w)
  }

  /** The tail of a pass: a periodic object is scheduled again on calendar `w`. */
  function Reschedule(s: Sim, g: Guid, w: nat): (r: Sim)
    requires Valid(s) && g in s.objs && w < |s.cals|
    ensures Valid(r) && g in r.objs
    ensures !Lifecycle.HasPeriodicSchedule(s.objs[g]) ==> r == s
    ensures Lifecycle.HasPeriodicSchedule(s.objs[g]) && s.objs[g].attached ==>
      var (d, next) := s.objs[g].gen.value.Next();
      && r.objs[g].gen == Some(next)
      && r.objs[g].time == s.clock + d && r.objs[g].cal == Some(w) && g in r.cals[w]
    ensures Lifecycle.HasPeriodicSchedule(s.objs[g]) && !s.objs[g].attached ==> !OnSomeCalendar(r, g)
    ensures Lifecycle.OthersUnchanged(s, r, g) && Lifecycle.OtherEntriesUnchanged(s, r, g)
    ensures r.objs[g].attached == s.objs[g].attached
    ensures Lifecycle.SameRegistry(s, r)
    ensures r.clock == s.clock && r.running == s.running && r.exitCode == s.exitCode
  {
    if Lifecycle.HasPeriodicSchedule(s.objs[g]) then Lifecycle.NextPeriodicSchedule(s, g, w) else s
  }

  /** The object a pass fires: the global top. */
  function Due(s: Sim): (g: Guid)
    requires Valid(s) && !CalendarList.AllEmpty(s.cals)
    ensures g in s.objs && OnSomeCalendar(s, g)
    ensures forall i, k :: 0 <= i < |s.cals| && 0 <= k < |s.cals[i]| ==> s.objs[g].time <= TimeOf(s)(s.cals[i][k])
  {
    PopIsUnlinkOfTop(s);
    TakeTop(s).1
  }

  /**
   * One pass of Simulation::Run.  The object fired is the global top and
   * the clock becomes its time, which no object on any calendar precedes.
   * When the simulation runs and the object is a process whose hook returns
   * a code, the run stops with that code; otherwise (an event, a process
   * whose hook returns nothing, or a stopped simulation) the run state is
   * left alone.
   */
  function Step(s: Sim, host: Host): (r: (Sim, Fired))
    requires Valid(s) && !CalendarList.AllEmpty(s.cals)
    ensures Valid(r.0)
    ensures r.1.guid == Due(s) && r.1.time == s.objs[Due(s)].time && GetSimulationTime(r.0) == r.1.time
    ensures r.1.process == s.objs[Due(s)].role.ProcessRole?
    ensures s.running && Stops(r.1, host) ==>
      !r.0.running && host(r.1.guid, r.1.time) == Some(r.0.exitCode)
    ensures !(s.running && Stops(r.1, host)) ==> r.0.running == s.running && r.0.exitCode == s.exitCode
    ensures r.0.byGuid <= s.byGuid && r.0.guidNext == s.guidNext
  {
    var (s1, g, w) := TakeTop(s);
    var (s2, ds) := RunObject(s1, g, host);
    (Reschedule(s2, g, w), Fired(g, s1.clock, s1.objs[g].role.ProcessRole?, ds))
  }

  /**
   * A pass changes nothing about any object other than the one it fires,
   * neither its record nor its place on the calendars.
   */
  lemma StepTouchesOnlyDue(s: Sim, host: Host)
    requires Valid(s) && !CalendarList.AllEmpty(s.cals)
    ensures Lifecycle.OthersUnchanged(s, Step(s, host).0, Due(s))
    ensures Lifecycle.OtherEntriesUnchanged(s, Step(s, host).0, Due(s))
  {
    var (s1, g, w) := TakeTop(s);
    var (s2, ds) := RunObject(s1, g, host);
    var s3 := Reschedule(s2, g, w);
    Lifecycle.OthersUnchangedTrans(s, s1, s2, g);
    Lifecycle.OthersUnchangedTrans(s, s2, s3, g);
  }

  /**
   * After a pass the fired object sits on a calendar only when it is
   * attached and periodic: then on the calendar it came from, a drawn delta
   * past the new clock.  An attached event without a generator has
   * terminated itself.
   */
  lemma StepReschedulesDue(s: Sim, host: Host)
    requires Valid(s) && !CalendarList.AllEmpty(s.cals)
    ensures var g := Due(s);
      var o := s.objs[g];
      var r := Step(s, host).0;
      && g in r.objs
      && (Lifecycle.HasPeriodicSchedule(o) && o.attached ==>
            var (d, next) := o.gen.value.Next();
            && r.objs[g].gen == Some(next)
            && r.objs[g].time == r.clock + d
            && r.objs[g].cal == o.cal && g in r.cals[o.cal.value])
      && (!(Lifecycle.HasPeriodicSchedule(o) && o.attached) ==> !OnSomeCalendar(r, g))
      && (o.role.EventRole? && o.attached && !Lifecycle.HasPeriodicSchedule(o) ==>
            !r.objs[g].attached && g !in r.byGuid)
  {
    var (s1, g, w) := TakeTop(s);
    var (s2, ds) := RunObject(s1, g, host);
  }

  /**
   * The loop itself disposes of nothing: the only object a pass unregisters
   * is an attached event without a periodic schedule, which terminates
   * itself.  Every other pass leaves the registry as it was.
   */
  lemma StepUnregistersOnlyDisposed(s: Sim, host: Host)
    requires Valid(s) && !CalendarList.AllEmpty(s.cals)
    ensures Step(s, host).0.byGuid == s.byGuid - DisposedByPass(s)
    ensures DisposedByPass(s) == {} ==> Lifecycle.SameRegistry(s, Step(s, host).0)
  {
    StepGuidIndex(s, host);
    LosesDisposed(s, Step(s, host).0, Due(s), s.objs[Due(s)]);
  }

  /** The type and class indexes after a pass lose exactly what the GUID index loses. */
  lemma StepIndexesLoseDisposed(s: Sim, host: Host)
    requires Valid(s) && !CalendarList.AllEmpty(s.cals)
    ensures Registry.IndexesLessBy(s, Step(s, host).0, DisposedByPass(s))
  {
    StepUnregistersOnlyDisposed(s, host);
    StepTouchesOnlyDue(s, host);
    Lifecycle.OthersUnchangedIndexes(s, Step(s, host).0, Due(s), DisposedByPass(s));
  }

  /** Firing `o` disposes of it: an attached event with no periodic schedule terminates itself. */
  predicate DisposesItself(o: Obj)
  {
    o.role.EventRole? && o.attached && !Lifecycle.HasPeriodicSchedule(o)
  }

  /** What firing object `g` in state `o` takes off the registry: `g` itself if it disposes of itself, else nothing. */
  function Disposed(g: Guid, o: Obj): set<Guid>
  {
    if DisposesItself(o) then {g} else {}
  }

  /** The object a pass takes off the registry, if any. */
  ghost function DisposedByPass(s: Sim): (r: set<Guid>)
    requires Valid(s) && !CalendarList.AllEmpty(s.cals)
    ensures r <= {Due(s)}
  {
    Disposed(Due(s), s.objs[Due(s)])
  }

  /** The GUID index after a pass, case by case. */
  lemma StepGuidIndex(s: Sim, host: Host)
    requires Valid(s) && !CalendarList.AllEmpty(s.cals)
    ensures DisposesItself(s.objs[Due(s)]) ==> Step(s, host).0.byGuid == s.byGuid - {Due(s)}
    ensures !DisposesItself(s.objs[Due(s)]) ==> Lifecycle.SameRegistry(s, Step(s, host).0)
  {
    var (s1, g, w) := TakeTop(s);
    var (s2, ds) := RunObject(s1, g, host);
    assert Step(s, host).0 == Reschedule(s2, g, w);
  }

  /** The two cases of StepGuidIndex, in terms of Disposed. */
  lemma LosesDisposed(s: Sim, r: Sim, g: Guid, o: Obj)
    requires DisposesItself(o) ==> r.byGuid == s.byGuid - {g}
    requires !DisposesItself(o) ==> Lifecycle.SameRegistry(s, r)
    ensures r.byGuid == s.byGuid - Disposed(g, o)
    ensures Disposed(g, o) == {} ==> Lifecycle.SameRegistry(s, r)
  {
    if !DisposesItself(o) {
      assert s.byGuid - Disposed(g, o) == s.byGuid;
    }
  }

  /** A pass keeps every calendar reference exact. */
  lemma StepKeepsCalendarRefsExact(s: Sim, host: Host)
    requires Valid(s) && !CalendarList.AllEmpty(s.cals) && Lifecycle.CalendarRefsExact(s)
    ensures Lifecycle.CalendarRefsExact(Step(s, host).0)
  {
    var (s1, g, w) := TakeTop(s);
    Lifecycle.ExactForOthers(s, s1, g);
    var (s2, ds) := RunObject(s1, g, host);
    Lifecycle.ExactForOthers(s1, s2, g);
    if Lifecycle.HasPeriodicSchedule(s2.objs[g]) {
      Lifecycle.NextPeriodicScheduleKeepsCalendarRefsExact(s2, g, w);
    }
  }

  /**
   * With no object scheduled in the past, a pass keeps it so, and the clock
   * does not go back.
   */
  lemma StepKeepsNoPastSchedules(s: Sim, host: Host)
    requires Valid(s) && !CalendarList.AllEmpty(s.cals) && NoPastSchedules(s)
    ensures NoPastSchedules(Step(s, host).0)
    ensures Step(s, host).0.clock >= s.clock
  {
    var r := Step(s, host).0;
    var g := Due(s);
    StepTouchesOnlyDue(s, host);
    StepReschedulesDue(s, host);
    DueNotBefore(s);
    OthersNotBefore(s, r, g);
  }

  /**
   * With nothing scheduled in the past, the due object is not in the past
   * either, and every scheduled object is due no earlier than it.
   */
  lemma DueNotBefore(s: Sim)
    requires Valid(s) && !CalendarList.AllEmpty(s.cals) && NoPastSchedules(s)
    ensures s.objs[Due(s)].time >= s.clock
    ensures forall i, k :: 0 <= i < |s.cals| && 0 <= k < |s.cals[i]| ==>
      s.cals[i][k] in s.objs && s.objs[Due(s)].time <= s.objs[s.cals[i][k]].time
  {
    var g := Due(s);
    var i0 :| 0 <= i0 < |s.cals| && g in s.cals[i0];
    var k0 :| 0 <= k0 < |s.cals[i0]| && s.cals[i0][k0] == g;
    forall i, k | 0 <= i < |s.cals| && 0 <= k < |s.cals[i]|
      ensures s.cals[i][k] in s.objs && s.objs[g].time <= s.objs[s.cals[i][k]].time
    {
      assert s.objs[g].time <= TimeOf(s)(s.cals[i][k]);
    }
  }

  /**
   * When only `g` changed, every other scheduled object keeps a time no
   * earlier than the new clock, and `g`, if scheduled, is not before it
   * either, nothing is scheduled in the past.
   */
  lemma OthersNotBefore(s: Sim, r: Sim, g: Guid)
    requires g in s.objs && Lifecycle.OthersUnchanged(s, r, g) && Lifecycle.OtherEntriesUnchanged(s, r, g)
    requires forall i, k :: 0 <= i < |s.cals| && 0 <= k < |s.cals[i]| ==>
      s.cals[i][k] in s.objs && r.clock <= s.objs[s.cals[i][k]].time
    requires OnSomeCalendar(r, g) ==> r.objs[g].time >= r.clock
    ensures NoPastSchedules(r)
  {
    forall i, k | 0 <= i < |r.cals| && 0 <= k < |r.cals[i]|
      ensures r.cals[i][k] in r.objs && r.objs[r.cals[i][k]].time >= r.clock
    {
      var h := r.cals[i][k];
      if h != g {
        assert multiset(r.cals[i])[h] == multiset(s.cals[i])[h];
        assert h in s.cals[i];
        var k' :| 0 <= k' < |s.cals[i]| && s.cals[i][k'] == h;
      } else {
        assert OnSomeCalendar(r, g);
      }
    }
  }

  /**
   * The passes of `trace` fired at non-decreasing times, none before `lo`
   * and none after `hi`.
   */
  predicate TimesWithin(trace: seq<Fired>, lo: nat, hi: nat)
  {
    |trace| == 0 || (lo <= trace[0].time <= hi && TimesWithin(trace[1..], trace[0].time, hi))
  }

  /**
   * The loop of Simulation::Run from state `s`, for at most `fuel` passes:
   * it stops once every calendar is empty or the simulation no longer runs.
   * It returns the final state and the trace of objects fired, in order.
   * A run still going at the end fired no process whose hook ended it and
   * keeps its exit code; a run that stopped was stopped by the last pass,
   * a process whose hook returned the exit code left behind.
   */
  function RunLoop(s: Sim, host: Host, fuel: nat): (r: (Sim, seq<Fired>))
    requires Valid(s)
    ensures Valid(r.0)
    ensures |r.1| <= fuel
    ensures |r.1| < fuel ==> CalendarList.AllEmpty(r.0.cals) || !r.0.running
    ensures !s.running || CalendarList.AllEmpty(s.cals) ==> r == (s, [])
    ensures r.0.running ==> Quiet(r.1, host) && r.0.exitCode == s.exitCode
    ensures s.running && !r.0.running ==> EndedBy(r.1, host, r.0.exitCode)
    ensures r.0.byGuid <= s.byGuid && r.0.guidNext == s.guidNext
    ensures NoPastSchedules(s) ==> NoPastSchedules(r.0) && r.0.clock >= s.clock
    ensures NoPastSchedules(s) ==> TimesWithin(r.1, s.clock, r.0.clock)
    ensures Lifecycle.CalendarRefsExact(s) ==> Lifecycle.CalendarRefsExact(r.0)
    decreases fuel
  {
    if fuel == 0 || CalendarList.AllEmpty(s.cals) || !s.running then (s, [])
    else
      var st := Step(s, host);
      StepKeepsInvariants(s, host);
      var rest := RunLoop(st.0, host, fuel - 1);
      var trace := [st.1] + rest.1;
      assert trace[1..] == rest.1;
      (rest.0, trace)
  }

  /** The recursive readings of `Quiet` and `EndedBy` are the pointwise ones. */
  lemma {:induction false} QuietEndedByEach(trace: seq<Fired>, host: Host, code: int)
    ensures Quiet(trace, host) <==> forall i :: 0 <= i < |trace| ==> !Stops(trace[i], host)
    ensures EndedBy(trace, host, code) <==>
      && |trace| > 0
      && (forall i :: 0 <= i < |trace| - 1 ==> !Stops(trace[i], host))
      && trace[|trace| - 1].process
      && host(trace[|trace| - 1].guid, trace[|trace| - 1].time) == Some(code)
    decreases |trace|
  {
    if |trace| > 0 {
      var tail := trace[1..];
      QuietEndedByEach(tail, host, code);
      assert forall i :: 0 < i < |trace| ==> trace[i] == tail[i - 1];
    }
  }

  /** A trace ended by a hook is not quiet, and the hook's code is determined by the trace. */
  lemma {:induction false} EndedByIsNotQuiet(trace: seq<Fired>, host: Host, code: int, other: int)
    requires EndedBy(trace, host, code)
    ensures !Quiet(trace, host)
    ensures EndedBy(trace, host, other) ==> other == code
    decreases |trace|
  {
    if !Stops(trace[0], host) {
      EndedByIsNotQuiet(trace[1..], host, code, other);
    }
  }

  /** A pass keeps the schedule out of the past and the calendar references exact. */
  lemma StepKeepsInvariants(s: Sim, host: Host)
    requires Valid(s) && !CalendarList.AllEmpty(s.cals)
    ensures NoPastSchedules(s) ==> NoPastSchedules(Step(s, host).0) && Step(s, host).0.clock >= s.clock
    ensures Lifecycle.CalendarRefsExact(s) ==> Lifecycle.CalendarRefsExact(Step(s, host).0)
  {
    if NoPastSchedules(s) { StepKeepsNoPastSchedules(s, host); }
    if Lifecycle.CalendarRefsExact(s) { StepKeepsCalendarRefsExact(s, host); }
  }

  /** The recursive reading of `TimesWithin` is the pointwise one. */
  lemma {:induction false} TimesWithinEach(trace: seq<Fired>, lo: nat, hi: nat)
    ensures TimesWithin(trace, lo, hi) <==>
      && (forall i :: 0 <= i < |trace| ==> lo <= trace[i].time <= hi)
      && (forall i, j :: 0 <= i < j < |trace| ==> trace[i].time <= trace[j].time)
    decreases |trace|
  {
    if |trace| > 0 {
      TimesWithinEach(trace[1..], trace[0].time, hi);
      if TimesWithin(trace, lo, hi) {
        forall i, j | 0 <= i < j < |trace| ensures trace[i].time <= trace[j].time {
          assert trace[j] == trace[1..][j - 1];
          if i > 0 { assert trace[i] == trace[1..][i - 1]; }
        }
      }
      if (forall i :: 0 <= i < |trace| ==> lo <= trace[i].time <= hi)
        && (forall i, j :: 0 <= i < j < |trace| ==> trace[i].time <= trace[j].time)
      {
        forall i | 0 <= i < |trace[1..]| ensures trace[0].time <= trace[1..][i].time <= hi {
          assert trace[1..][i] == trace[i + 1];
        }
      }
    }
  }

  /**
   * With no object scheduled in the past, the loop fires objects in
   * non-decreasing time order, never before the starting clock and never
   * after the final one.
   */
  lemma {:induction false} RunLoopTimesMonotone(s: Sim, host: Host, fuel: nat)
    requires Valid(s) && NoPastSchedules(s)
    ensures var r := RunLoop(s, host, fuel);
      && (forall i :: 0 <= i < |r.1| ==> s.clock <= r.1[i].time <= r.0.clock)
      && (forall i, j :: 0 <= i < j < |r.1| ==> r.1[i].time <= r.1[j].time)
  {
    var r := RunLoop(s, host, fuel);
    var trace, lo, hi := r.1, s.clock, r.0.clock;
    assert TimesWithin(trace, lo, hi);
    TimesWithinEach(trace, lo, hi);
  }

  /**
   * Simulation::Run, for at most `fuel` passes: the exit code starts as OK
   * and the simulation runs until every calendar is empty or a hook ends it;
   * afterwards the simulation no longer runs.  It returns OK when no fired
   * process's hook ended the simulation, and otherwise the code of the one
   * hook that did, which belongs to the last pass.
   */
  function Run(s: Sim, host: Host, fuel: nat): (r: (Sim, int, seq<Fired>))
    requires Valid(s)
    ensures Valid(r.0) && !r.0.running && r.1 == r.0.exitCode
    ensures Quiet(r.2, host) ==> r.1 == ExitOk
    ensures !Quiet(r.2, host) ==> EndedBy(r.2, host, r.1)
    ensures |r.2| <= fuel
    ensures |r.2| < fuel ==> CalendarList.AllEmpty(r.0.cals) || EndedBy(r.2, host, r.1)
    ensures CalendarList.AllEmpty(s.cals) ==> r.2 == [] && r.1 == ExitOk
    ensures NoPastSchedules(s) ==> r.0.clock >= s.clock && TimesWithin(r.2, s.clock, r.0.clock)
    ensures r.0.byGuid <= s.byGuid && r.0.guidNext == s.guidNext
  {
    var started := WithRunState(s, true, ExitOk);
    var loop := RunLoop(started, host, fuel);
    assert !loop.0.running ==> !Quiet(loop.1, host) by {
      if !loop.0.running { EndedByIsNotQuiet(loop.1, host, loop.0.exitCode, loop.0.exitCode); }
    }
    (WithRunState(loop.0, false, loop.0.exitCode), loop.0.exitCode, loop.1)
  }

  /** The simulation with its run flag and exit code set; nothing else changes. */
  function WithRunState(s: Sim, running: bool, exitCode: int): (r: Sim)
    requires Valid(s)
    ensures Valid(r) && r.running == running && r.exitCode == exitCode
    ensures r.objs == s.objs && r.cals == s.cals && r.clock == s.clock
    ensures Lifecycle.SameRegistry(s, r)
    ensures NoPastSchedules(s) ==> NoPastSchedules(r)
  {
    s.(running := running, exitCode := exitCode)
  }

  /** Running the whole simulation keeps every calendar reference exact. */
  lemma {:induction false} RunKeepsCalendarRefsExact(s: Sim, host: Host, fuel: nat)
    requires Valid(s) && Lifecycle.CalendarRefsExact(s)
    ensures Lifecycle.CalendarRefsExact(Run(s, host, fuel).0)
  {
    var started := WithRunState(s, true, ExitOk);
    assert Lifecycle.CalendarRefsExact(started);
    var loop := RunLoop(started, host, fuel);
    assert Lifecycle.CalendarRefsExact(loop.0);
  }
}

=== FILE: registry.dfy ===
/**
 * The simulation: its object registry (GUID, type and class indexes), its
 * calendar list, its clock and its run state.
 *
 * Objects live in an arena keyed by GUID.  The arena keeps an object after it
 * leaves the registry, as the source's shared ownership keeps it alive; the
 * registry's GUID index is the set `byGuid`.
 */
module Registry {
  import opened Types
  import opened Entities
  import Calendar
  import CalendarList

  datatype Sim = Sim(
    objs: map<Guid, Obj>,
    byGuid: set<Guid>,
    byType: map<ObjType, seq<Guid>>,
    byClass: map<nat, seq<Guid>>,
    guidNext: nat,
    clock: Time,
    cals: CalendarList.CalList,
    running: bool,
    exitCode: int)

  /** The scheduled time of every object, as the calendars read it. */
  function TimeOf(s: Sim): Calendar.TimeOf
  {
    (g: Guid) => if g in s.objs then s.objs[g].time else 0
  }

  /** The list an index holds under `k`; a missing key reads as the empty list. */
  function ListOf<K>(m: map<K, seq<Guid>>, k: K): seq<Guid>
  {
    if k in m then m[k] else []
  }

  /**
   * The registry's indexes agree: GUIDs come from the counter, every entry of
   * the type (class) index is registered and filed under its own type
   * (class), once, and every registered object is filed in both.
   */
  ghost predicate RegistryValid(s: Sim)
  {
    GuidsOk(s) && TypeIndexOk(s) && ClassIndexOk(s)
  }

  ghost predicate GuidsOk(s: Sim)
  {
    && s.guidNext >= 1
    && (forall g :: g in s.objs ==> 1 <= g < s.guidNext)
    && s.byGuid <= s.objs.Keys
  }

  ghost predicate TypeIndexOk(s: Sim)
    requires s.byGuid <= s.objs.Keys
  {
    && (forall t, i :: t in s.byType && 0 <= i < |s.byType[t]| ==>
          s.byType[t][i] in s.byGuid && s.objs[s.byType[t][i]].Type() == t)
    && (forall t :: t in s.byType ==> NoDup(s.byType[t]))
    && (forall g :: g in s.byGuid ==> g in ListOf(s.byType, s.objs[g].Type()))
  }

  ghost predicate ClassIndexOk(s: Sim)
    requires s.byGuid <= s.objs.Keys
  {
    && (forall c, i :: c in s.byClass && 0 <= i < |s.byClass[c]| ==>
          s.byClass[c][i] in s.byGuid && s.objs[s.byClass[c][i]].cls == c)
    && (forall c :: c in s.byClass ==> NoDup(s.byClass[c]))
    && (forall g :: g in s.byGuid ==> g in ListOf(s.byClass, s.objs[g].cls))
  }

  /**
   * Calendar membership agrees with the objects: every object sitting on a
   * calendar points at that calendar (so it sits on at most one), sits there
   * once, and every calendar reference names a calendar of the list.
   */
  ghost predicate CalendarsValid(s: Sim)
  {
    && (forall g :: g in s.objs && s.objs[g].cal.Some? ==> s.objs[g].cal.value < |s.cals|)
    && (forall i, k :: 0 <= i < |s.cals| && 0 <= k < |s.cals[i]| ==>
          s.cals[i][k] in s.objs && s.objs[s.cals[i][k]].cal == Some(i))
    && (forall i :: 0 <= i < |s.cals| ==> NoDup(s.cals[i]))
  }

  ghost predicate Valid(s: Sim)
  {
    RegistryValid(s) && CalendarsValid(s)
  }

  /** The object sits on some calendar of the list. */
  ghost predicate OnSomeCalendar(s: Sim, g: Guid)
  {
    exists i :: 0 <= i < |s.cals| && g in s.cals[i]
  }

  /**
   * A new simulation: no objects, the GUID counter at 1, the clock at 0, no
   * calendars, not running, exit code OK.
   */
  function Create(): (s: Sim)
    ensures Valid(s)
    ensures s.guidNext == 1 && s.clock == 0 && !s.running && s.exitCode == ExitOk
    ensures s.byGuid == {} && s.cals == []
  {
    Sim(map[], {}, map[], map[], 1, 0, [], false, ExitOk)
  }

  /**
   * Setup / AddCalendar: appends a fresh, empty calendar to the list and
   * returns its position.
   */
  function AddCalendar(s: Sim): (r: (Sim, nat))
    requires Valid(s)
    ensures Valid(r.0)
    ensures r.1 == |s.cals| && |r.0.cals| == |s.cals| + 1 && r.0.cals[r.1] == []
    ensures r.0.cals[..|s.cals|] == s.cals
    ensures r.0.objs == s.objs && r.0.byGuid == s.byGuid && r.0.clock == s.clock
  {
    (s.(cals := s.cals + [[]]), |s.cals|)
  }

  /** The simulation's clock. */
  function GetSimulationTime(s: Sim): Time
  {
    s.clock
  }

  /**
   * Terminate: only while running, stops the run and records the exit code;
   * otherwise nothing changes.
   */
  function Terminate(s: Sim, exitCode: int): (r: Sim)
    ensures !r.running
    ensures s.running ==> r.exitCode == exitCode
    ensures !s.running ==> r == s
    ensures r.objs == s.objs && r.byGuid == s.byGuid && r.byType == s.byType && r.byClass == s.byClass
    ensures r.cals == s.cals && r.clock == s.clock && r.guidNext == s.guidNext
  {
    if !s.running then s else s.(running := false, exitCode := exitCode)
  }

  /** A second Terminate changes nothing: the first exit code stays. */
  lemma TerminateTwice(s: Sim, first: int, second: int)
    ensures Terminate(Terminate(s, first), second) == Terminate(s, first)
  {
  }

  /**
   * AddObject: the object gets the current counter value as its GUID, is
   * filed in the GUID index and appended to the list of its type and of its
   * class, and the counter moves on by one.  Nothing already registered
   * changes, and every other index list stays as it was.
   */
  function AddObject(s: Sim, role: Role, cls: nat, attached: bool): (r: (Sim, Guid))
    requires Valid(s)
    ensures Valid(r.0)
    ensures r.1 == s.guidNext && r.0.guidNext == r.1 + 1
    ensures forall g :: g in s.objs ==> g < r.1
    ensures r.1 !in s.objs && r.0.objs == s.objs[r.1 := Obj(role, cls, attached, 0, None, None)]
    ensures r.0.byGuid == s.byGuid + {r.1}
    ensures r.1 in ListOf(r.0.byType, r.0.objs[r.1].Type()) && r.1 in ListOf(r.0.byClass, cls)
    ensures forall t, g :: g != r.1 ==> (g in ListOf(r.0.byType, t) <==> g in ListOf(s.byType, t))
    ensures forall c, g :: g != r.1 ==> (g in ListOf(r.0.byClass, c) <==> g in ListOf(s.byClass, c))
    ensures forall t :: ListOf(r.0.byType, t) == ListOf(s.byType, t) + (if t == r.0.objs[r.1].Type() then [r.1] else [])
    ensures forall c :: ListOf(r.0.byClass, c) == ListOf(s.byClass, c) + (if c == cls then [r.1] else [])
    ensures r.0.cals == s.cals && r.0.clock == s.clock
    ensures r.0.running == s.running && r.0.exitCode == s.exitCode
  {
    var g := s.guidNext;
    var o := Obj(role, cls, attached, 0, None, None);
    var t := o.Type();
    var s' := s.(
      objs := s.objs[g := o],
      byGuid := s.byGuid + {g},
      byType := s.byType[t := ListOf(s.byType, t) + [g]],
      byClass := s.byClass[cls := ListOf(s.byClass, cls) + [g]],
      guidNext := g + 1);
    AddKeepsRegistryValid(s, o, s');
    AddKeepsCalendarsValid(s, o, s');
    (s', g)
  }

  lemma AddKeepsRegistryValid(s: Sim, o: Obj, s': Sim)
    requires Valid(s)
    requires s' == s.(
      objs := s.objs[s.guidNext := o],
      byGuid := s.byGuid + {s.guidNext},
      byType := s.byType[o.Type() := ListOf(s.byType, o.Type()) + [s.guidNext]],
      byClass := s.byClass[o.cls := ListOf(s.byClass, o.cls) + [s.guidNext]],
      guidNext := s.guidNext + 1)
    ensures RegistryValid(s')
    ensures forall t: ObjType, h: Guid :: h != s.guidNext ==> (h in ListOf(s'.byType, t) <==> h in ListOf(s.byType, t))
    ensures forall c: nat, h: Guid :: h != s.guidNext ==> (h in ListOf(s'.byClass, c) <==> h in ListOf(s.byClass, c))
  {
    AddKeepsTypeIndex(s, o, s');
    AddKeepsClassIndex(s, o, s');
  }

  /** Appending the new GUID to its type's list keeps the type index consistent. */
  lemma AddKeepsTypeIndex(s: Sim, o: Obj, s': Sim)
    requires Valid(s)
    requires s'.objs == s.objs[s.guidNext := o] && s'.byGuid == s.byGuid + {s.guidNext}
    requires s'.byType == s.byType[o.Type() := ListOf(s.byType, o.Type()) + [s.guidNext]]
    ensures TypeIndexOk(s')
    ensures forall t: ObjType, h: Guid :: h != s.guidNext ==> (h in ListOf(s'.byType, t) <==> h in ListOf(s.byType, t))
  {
    var g := s.guidNext;
    assert g !in s.objs;
    forall t, i | t in s'.byType && 0 <= i < |s'.byType[t]|
      ensures s'.byType[t][i] in s'.byGuid && s'.objs[s'.byType[t][i]].Type() == t
    {
      if t == o.Type() && i == |s'.byType[t]| - 1 {
      } else {
        assert s'.byType[t][i] == s.byType[t][i];
      }
    }
    AppendFreshKeepsNoDup(s, ListOf(s.byType, o.Type()));
    UpdatedIndexNoDup(s.byType, s'.byType, o.Type(), ListOf(s.byType, o.Type()) + [g]);
    forall h | h in s'.byGuid
      ensures h in ListOf(s'.byType, s'.objs[h].Type())
    {
      if h != g {
        assert h in ListOf(s.byType, s.objs[h].Type());
      }
    }
  }

  /** Appending the new GUID to its class's list keeps the class index consistent. */
  lemma AddKeepsClassIndex(s: Sim, o: Obj, s': Sim)
    requires Valid(s)
    requires s'.objs == s.objs[s.guidNext := o] && s'.byGuid == s.byGuid + {s.guidNext}
    requires s'.byClass == s.byClass[o.cls := ListOf(s.byClass, o.cls) + [s.guidNext]]
    ensures ClassIndexOk(s')
    ensures forall c: nat, h: Guid :: h != s.guidNext ==> (h in ListOf(s'.byClass, c) <==> h in ListOf(s.byClass, c))
  {
    var g := s.guidNext;
    assert g !in s.objs;
    forall c, i | c in s'.byClass && 0 <= i < |s'.byClass[c]|
      ensures s'.byClass[c][i] in s'.byGuid && s'.objs[s'.byClass[c][i]].cls == c
    {
      if c == o.cls && i == |s'.byClass[c]| - 1 {
      } else {
        assert s'.byClass[c][i] == s.byClass[c][i];
      }
    }
    AppendFreshKeepsNoDup(s, ListOf(s.byClass, o.cls));
    UpdatedIndexNoDup(s.byClass, s'.byClass, o.cls, ListOf(s.byClass, o.cls) + [g]);
    forall h | h in s'.byGuid
      ensures h in ListOf(s'.byClass, s'.objs[h].cls)
    {
      if h != g {
        assert h in ListOf(s.byClass, s.objs[h].cls);
      }
    }
  }

  /** An index list of registered objects stays duplicate-free when the next GUID is appended. */
  lemma AppendFreshKeepsNoDup(s: Sim, l: seq<Guid>)
    requires GuidsOk(s) && NoDup(l) && forall i :: 0 <= i < |l| ==> l[i] in s.byGuid
    ensures NoDup(l + [s.guidNext])
  {
    forall i, j | 0 <= i < j < |l + [s.guidNext]|
      ensures (l + [s.guidNext])[i] != (l + [s.guidNext])[j]
    {
      if j == |l| {
        assert l[i] in s.objs;
      }
    }
  }

  /** An index whose lists have no duplicates keeps that when one list is replaced by another without. */
  lemma UpdatedIndexNoDup<K>(m: map<K, seq<Guid>>, m': map<K, seq<Guid>>, k: K, l: seq<Guid>)
    requires forall k' :: k' in m ==> NoDup(m[k'])
    requires NoDup(l) && m' == m[k := l]
    ensures forall k' :: k' in m' ==> NoDup(m'[k'])
  {
  }

  lemma AddKeepsCalendarsValid(s: Sim, o: Obj, s': Sim)
    requires Valid(s) && o.cal.None?
    requires s'.objs == s.objs[s.guidNext := o] && s'.cals == s.cals
    ensures CalendarsValid(s')
  {
    assert s.guidNext !in s.objs;
    forall i, k | 0 <= i < |s'.cals| && 0 <= k < |s'.cals[i]|
      ensures s'.cals[i][k] in s'.objs && s'.objs[s'.cals[i][k]].cal == Some(i)
    {
      assert s.cals[i][k] in s.objs;
    }
  }

  /**
   * CreateObject: the object's own class is kept unless it is unspecified,
   * in which case the class argument is used; the object is attached to this
   * simulation and registered, so its new GUID finds it.
   */
  function CreateObject(s: Sim, role: Role, ownClass: nat, objectClass: nat): (r: (Sim, Guid))
    requires Valid(s)
    ensures Valid(r.0)
    ensures r.1 == s.guidNext && r.1 !in s.objs && r.1 in r.0.objs
    ensures r.0.objs[r.1].role == role
    ensures r.0.objs[r.1].cls == if ownClass == ObjectClassNotSpecified then objectClass else ownClass
    ensures r.0.objs[r.1].attached
    ensures r.0.objs[r.1].cal.None? && r.0.objs[r.1].gen.None?
    ensures GetObjectByGuid(r.0, r.1) == Some(r.1)
    ensures r.0.byGuid == s.byGuid + {r.1}
    ensures forall h :: h in s.objs ==> h in r.0.objs && r.0.objs[h] == s.objs[h]
  {
    var cls := if ownClass == ObjectClassNotSpecified then objectClass else ownClass;
    AddObject(s, role, cls, true)
  }

  /**
   * RemoveObjectFromList: `l` without any entry equal to `g`; every other
   * entry stays, as often as it occurred and in the original order.
   */
  function RemoveAll(l: seq<Guid>, g: Guid): (r: seq<Guid>)
    ensures Subseq(r, l)
    ensures forall h :: multiset(r)[h] == if h == g then 0 else multiset(l)[h]
    ensures forall h :: h in r <==> h in l && h != g
    ensures g !in l ==> r == l
    ensures NoDup(l) ==> NoDup(r)
  {
    if |l| == 0 then []
    else
      var rest := RemoveAll(l[1..], g);
      var r := if l[0] == g then rest else [l[0]] + rest;
      RemoveAllStepOrder(l, g, rest, r);
      RemoveAllStepCounts(l, g, rest, r);
      r
  }

  /** One step of RemoveAll keeps the result a subsequence of the list. */
  lemma RemoveAllStepOrder(l: seq<Guid>, g: Guid, rest: seq<Guid>, r: seq<Guid>)
    requires |l| > 0 && Subseq(rest, l[1..])
    requires r == if l[0] == g then rest else [l[0]] + rest
    ensures Subseq(r, l)
  {
    if l[0] != g {
      assert r[1..] == rest;
    }
  }

  /** One step of RemoveAll keeps the counts: none of `g`, every other value as often as in the list. */
  lemma RemoveAllStepCounts(l: seq<Guid>, g: Guid, rest: seq<Guid>, r: seq<Guid>)
    requires |l| > 0
    requires forall h :: multiset(rest)[h] == if h == g then 0 else multiset(l[1..])[h]
    requires r == if l[0] == g then rest else [l[0]] + rest
    ensures forall h :: multiset(r)[h] == if h == g then 0 else multiset(l)[h]
    ensures forall h :: h in r <==> h in l && h != g
    ensures NoDup(l) ==> NoDup(r)
  {
    assert l == [l[0]] + l[1..];
    assert multiset(l) == multiset{l[0]} + multiset(l[1..]);
    assert multiset(r) <= multiset(l);
    forall h
      ensures h in r <==> h in l && h != g
    {
      assert h in r <==> multiset(r)[h] > 0;
      assert h in l <==> multiset(l)[h] > 0;
    }
    if NoDup(l) {
      NoDupSubMultiset(r, l);
    }
  }

  /**
   * RemoveObject: drops the object from the GUID index and every entry with
   * its GUID from its type and class lists.  Objects not registered leave the
   * simulation as it was.
   */
  function RemoveObject(s: Sim, g: Guid): (r: Sim)
    requires Valid(s) && g in s.objs
    ensures Valid(r)
    ensures r.byGuid == s.byGuid - {g}
    ensures forall t :: g !in ListOf(r.byType, t)
    ensures forall c :: g !in ListOf(r.byClass, c)
    ensures forall t: ObjType, h: Guid :: h != g ==> (h in ListOf(r.byType, t) <==> h in ListOf(s.byType, t))
    ensures forall c: nat, h: Guid :: h != g ==> (h in ListOf(r.byClass, c) <==> h in ListOf(s.byClass, c))
    ensures g !in s.byGuid ==> r == s
    ensures r.objs == s.objs && r.cals == s.cals && r.clock == s.clock && r.guidNext == s.guidNext
    ensures r.running == s.running && r.exitCode == s.exitCode
  {
    var o := s.objs[g];
    var t := o.Type();
    var byType := if t in s.byType then s.byType[t := RemoveAll(s.byType[t], g)] else s.byType;
    var byClass := if o.cls in s.byClass then s.byClass[o.cls := RemoveAll(s.byClass[o.cls], g)] else s.byClass;
    var r := s.(byGuid := s.byGuid - {g}, byType := byType, byClass := byClass);
    RemoveKeepsTypeIndex(s, g, r);
    RemoveKeepsClassIndex(s, g, r);
    assert g !in s.byGuid ==> r == s;
    r
  }

  /** After a removal, every entry left in a type list is still registered and filed under its own key. */
  lemma RemoveTypeEntriesRegistered(s: Sim, g: Guid, r: Sim)
    requires RegistryValid(s) && g in s.objs
    requires r.objs == s.objs && r.byGuid == s.byGuid - {g}
    requires var t := s.objs[g].Type();
      r.byType == if t in s.byType then s.byType[t := RemoveAll(s.byType[t], g)] else s.byType
    ensures forall t', i :: t' in r.byType && 0 <= i < |r.byType[t']| ==>
      r.byType[t'][i] in r.byGuid && r.objs[r.byType[t'][i]].Type() == t'
  {
    forall t', i | t' in r.byType && 0 <= i < |r.byType[t']|
      ensures r.byType[t'][i] in r.byGuid && r.objs[r.byType[t'][i]].Type() == t'
    {
      var h := r.byType[t'][i];
      assert h in ListOf(r.byType, t');
      var j :| 0 <= j < |s.byType[t']| && s.byType[t'][j] == h;
    }
  }

  /** After a removal, the type lists hold what they held, less `g`. */
  lemma RemoveTypeMembership(s: Sim, g: Guid, r: Sim)
    requires RegistryValid(s) && g in s.objs
    requires r.objs == s.objs && r.byGuid == s.byGuid - {g}
    requires var t := s.objs[g].Type();
      r.byType == if t in s.byType then s.byType[t := RemoveAll(s.byType[t], g)] else s.byType
    ensures forall t :: g !in ListOf(r.byType, t)
    ensures forall t: ObjType, h: Guid :: h != g ==> (h in ListOf(r.byType, t) <==> h in ListOf(s.byType, t))
  {
  }

  lemma RemoveKeepsTypeIndex(s: Sim, g: Guid, r: Sim)
    requires RegistryValid(s) && g in s.objs
    requires r.objs == s.objs && r.byGuid == s.byGuid - {g}
    requires var t := s.objs[g].Type();
      r.byType == if t in s.byType then s.byType[t := RemoveAll(s.byType[t], g)] else s.byType
    ensures TypeIndexOk(r)
    ensures forall t :: g !in ListOf(r.byType, t)
    ensures forall t: ObjType, h: Guid :: h != g ==> (h in ListOf(r.byType, t) <==> h in ListOf(s.byType, t))
    ensures g !in s.byGuid ==> r.byType == s.byType
  {
    var t := s.objs[g].Type();
    RemoveTypeMembership(s, g, r);
    RemoveTypeEntriesRegistered(s, g, r);
    if t in s.byType {
      UpdatedIndexNoDup(s.byType, r.byType, t, RemoveAll(s.byType[t], g));
    }
  }

  /** After a removal, every entry left in a class list is still registered and filed under its own key. */
  lemma RemoveClassEntriesRegistered(s: Sim, g: Guid, r: Sim)
    requires RegistryValid(s) && g in s.objs
    requires r.objs == s.objs && r.byGuid == s.byGuid - {g}
    requires var c := s.objs[g].cls;
      r.byClass == if c in s.byClass then s.byClass[c := RemoveAll(s.byClass[c], g)] else s.byClass
    ensures forall c', i :: c' in r.byClass && 0 <= i < |r.byClass[c']| ==>
      r.byClass[c'][i] in r.byGuid && r.objs[r.byClass[c'][i]].cls == c'
  {
    forall c', i | c' in r.byClass && 0 <= i < |r.byClass[c']|
      ensures r.byClass[c'][i] in r.byGuid && r.objs[r.byClass[c'][i]].cls == c'
    {
      var h := r.byClass[c'][i];
      assert h in ListOf(r.byClass, c');
      var j :| 0 <= j < |s.byClass[c']| && s.byClass[c'][j] == h;
    }
  }

  /** After a removal, the class lists hold what they held, less `g`. */
  lemma RemoveClassMembership(s: Sim, g: Guid, r: Sim)
    requires RegistryValid(s) && g in s.objs
    requires r.objs == s.objs && r.byGuid == s.byGuid - {g}
    requires var c := s.objs[g].cls;
      r.byClass == if c in s.byClass then s.byClass[c := RemoveAll(s.byClass[c], g)] else s.byClass
    ensures forall c :: g !in ListOf(r.byClass, c)
    ensures forall c: nat, h: Guid :: h != g ==> (h in ListOf(r.byClass, c) <==> h in ListOf(s.byClass, c))
  {
  }

  lemma RemoveKeepsClassIndex(s: Sim, g: Guid, r: Sim)
    requires RegistryValid(s) && g in s.objs
    requires r.objs == s.objs && r.byGuid == s.byGuid - {g}
    requires var c := s.objs[g].cls;
      r.byClass == if c in s.byClass then s.byClass[c := RemoveAll(s.byClass[c], g)] else s.byClass
    ensures ClassIndexOk(r)
    ensures forall c :: g !in ListOf(r.byClass, c)
    ensures forall c: nat, h: Guid :: h != g ==> (h in ListOf(r.byClass, c) <==> h in ListOf(s.byClass, c))
    ensures g !in s.byGuid ==> r.byClass == s.byClass
  {
    var c := s.objs[g].cls;
    RemoveClassMembership(s, g, r);
    RemoveClassEntriesRegistered(s, g, r);
    if c in s.byClass {
      UpdatedIndexNoDup(s.byClass, r.byClass, c, RemoveAll(s.byClass[c], g));
    }
  }

  /** GetObjectByGUID: finds exactly the registered objects; any other GUID gives none. */
  function GetObjectByGuid(s: Sim, g: Guid): (r: Option<Guid>)
    ensures r.Some? <==> g in s.byGuid
    ensures r.Some? ==> r.value == g
  {
    if g in s.byGuid then Some(g) else None
  }

  /** GetObjectsByType: exactly the registered objects of that type, each once (an empty list if none). */
  function GetObjectsByType(s: Sim, t: ObjType): (r: seq<Guid>)
    requires RegistryValid(s)
    ensures forall g :: g in r <==> g in s.byGuid && s.objs[g].Type() == t
    ensures NoDup(r)
  {
    ListOf(s.byType, t)
  }

  /** GetObjectsByClass: exactly the registered objects of that class, each once (an empty list if none). */
  function GetObjectsByClass(s: Sim, c: nat): (r: seq<Guid>)
    requires RegistryValid(s)
    ensures forall g :: g in r <==> g in s.byGuid && s.objs[g].cls == c
    ensures NoDup(r)
  {
    ListOf(s.byClass, c)
  }

  /** The members of `ids` below `n`, in ascending order. */
  function Ascending(ids: set<Guid>, n: nat): (r: seq<Guid>)
    ensures forall i, j :: 0 <= i < j < |r| ==> r[i] < r[j]
    ensures forall g :: g in r <==> g in ids && g < n
  {
    if n == 0 then []
    else
      var prefix := Ascending(ids, n - 1);
      assert forall i :: 0 <= i < |prefix| ==> prefix[i] < n - 1 by {
        forall i | 0 <= i < |prefix|
          ensures prefix[i] < n - 1
        {
          assert prefix[i] in prefix;
        }
      }
      prefix + (if n - 1 in ids then [n - 1] else [])
  }

  /** GetAllObjects: every registered object exactly once, in ascending GUID order. */
  function GetAllObjects(s: Sim): (r: seq<Guid>)
    requires RegistryValid(s)
    ensures forall i, j :: 0 <= i < j < |r| ==> r[i] < r[j]
    ensures forall g :: g in r <==> g in s.byGuid
  {
    Ascending(s.byGuid, s.guidNext)
  }

  /** Two objects added one after the other get consecutive GUIDs. */
  lemma ConsecutiveGuids(s: Sim, a: Role, ca: nat, aa: bool, b: Role, cb: nat, ab: bool)
    requires Valid(s)
    ensures var (s1, g1) := AddObject(s, a, ca, aa);
            var (s2, g2) := AddObject(s1, b, cb, ab);
            g1 >= 1 && g2 == g1 + 1
  {
  }

  /**
   * Removing an object that was just added makes it unreachable from every
   * index, while every other object is found exactly as before the add.
   */
  lemma RemoveAfterAdd(s: Sim, role: Role, cls: nat, attached: bool)
    requires Valid(s)
    ensures var (s1, g) := AddObject(s, role, cls, attached);
            var s2 := RemoveObject(s1, g);
            && GetObjectByGuid(s2, g).None?
            && s2.byGuid == s.byGuid
            && (forall t :: g !in GetObjectsByType(s2, t))
            && (forall t: ObjType, h: Guid :: h in GetObjectsByType(s2, t) <==> h in GetObjectsByType(s, t))
            && (forall c: nat, h: Guid :: h in GetObjectsByClass(s2, c) <==> h in GetObjectsByClass(s, c))
  {
    var (s1, g) := AddObject(s, role, cls, attached);
    var s2 := RemoveObject(s1, g);
    forall t: ObjType, h: Guid
      ensures h in GetObjectsByType(s2, t) <==> h in GetObjectsByType(s, t)
    {
      if h == g {
        assert g !in s.objs;
      }
    }
    forall c: nat, h: Guid
      ensures h in GetObjectsByClass(s2, c) <==> h in GetObjectsByClass(s, c)
    {
      if h == g {
        assert g !in s.objs;
      }
    }
  }

  /** Under a valid registry, each index lists exactly the registered objects filed under its key. */
  lemma IndexMembership(s: Sim, h: Guid)
    requires RegistryValid(s)
    ensures forall t :: h in ListOf(s.byType, t) <==> h in s.byGuid && s.objs[h].Type() == t
    ensures forall c :: h in ListOf(s.byClass, c) <==> h in s.byGuid && s.objs[h].cls == c
  {
  }

  /** Every type list and class list of `r` holds what the same list of `s` holds, less `gone`. */
  ghost predicate IndexesLessBy(s: Sim, r: Sim, gone: set<Guid>)
  {
    && (forall t: ObjType, h: Guid :: h in ListOf(r.byType, t) <==> h in ListOf(s.byType, t) && h !in gone)
    && (forall c: nat, h: Guid :: h in ListOf(r.byClass, c) <==> h in ListOf(s.byClass, c) && h !in gone)
  }

  /**
   * When the GUID index loses `gone` and no object changes type or class,
   * the type and class indexes lose exactly `gone` as well.
   */
  lemma IndexesFollowGuids(s: Sim, r: Sim, gone: set<Guid>)
    requires RegistryValid(s) && RegistryValid(r)
    requires r.objs.Keys == s.objs.Keys
    requires forall h :: h in s.objs ==> r.objs[h].Type() == s.objs[h].Type() && r.objs[h].cls == s.objs[h].cls
    requires r.byGuid == s.byGuid - gone
    ensures IndexesLessBy(s, r, gone)
  {
    forall t: ObjType, h: Guid
      ensures h in ListOf(r.byType, t) <==> h in ListOf(s.byType, t) && h !in gone
    {
      IndexMembership(s, h);
      IndexMembership(r, h);
      if h in s.byGuid {
        assert r.objs[h].Type() == s.objs[h].Type();
      }
    }
    forall c: nat, h: Guid
      ensures h in ListOf(r.byClass, c) <==> h in ListOf(s.byClass, c) && h !in gone
    {
      IndexMembership(s, h);
      IndexMembership(r, h);
      if h in s.byGuid {
        assert r.objs[h].cls == s.objs[h].cls;
      }
    }
  }

  /**
   * Registry validity depends only on the registry's own fields and on each
   * object's type and class, which never change after registration.
   */
  lemma RegistryUnaffected(s: Sim, s': Sim)
    requires RegistryValid(s)
    requires s'.objs.Keys == s.objs.Keys
    requires forall g :: g in s.objs ==> s'.objs[g].Type() == s.objs[g].Type() && s'.objs[g].cls == s.objs[g].cls
    requires s'.byGuid == s.byGuid && s'.byType == s.byType && s'.byClass == s.byClass
    requires s'.guidNext == s.guidNext
    ensures RegistryValid(s')
  {
  }
}

=== FILE: selection.dfy ===
/**
 * The target-selection filters of an event: the field filter (a stable
 * `remove_if` of the objects whose field differs from the parameter) and
 * the mode filter (ALL, ONE, K_OF_N).  The event's pseudo-random engine is
 * a `Stream` of numbers; a uniform index below `n` is a drawn number modulo
 * `n`, and the shuffle is a Fisher-Yates shuffle driven by drawn numbers.
 */
module Selection {
  import opened Types
  import opened Entities

  /** The object's field equals the criterion's parameter. */
  predicate Matches(g: Guid, o: Obj, f: Field)
  {
    match f
    case ByGuid(x) => g == x
    case ByType(t) => o.Type() == t
    case ByClass(c) => o.cls == c
  }

  /**
   * PerformCriteriaSelection: keeps, in their original order, exactly the
   * candidates whose field equals the parameter, each as often as it occurs.
   */
  function FieldFilter(xs: seq<Guid>, objs: map<Guid, Obj>, f: Field): (r: seq<Guid>)
    requires forall x :: x in xs ==> x in objs
    ensures Subseq(r, xs)
    ensures forall x :: x in r <==> x in xs && Matches(x, objs[x], f)
    ensures forall x :: x in objs ==> multiset(r)[x] == if Matches(x, objs[x], f) then multiset(xs)[x] else 0
    ensures multiset(r) <= multiset(xs)
    ensures NoDup(xs) ==> NoDup(r)
  {
    if |xs| == 0 then []
    else
      var rest := FieldFilter(xs[1..], objs, f);
      assert xs == [xs[0]] + xs[1..];
      var r := if Matches(xs[0], objs[xs[0]], f) then [xs[0]] + rest else rest;
      assert Matches(xs[0], objs[xs[0]], f) ==> r[1..] == rest;
      assert multiset(r) <= multiset(xs);
      assert NoDup(xs) ==> NoDup(r) by {
        if NoDup(xs) {
          NoDupSubMultiset(r, xs);
        }
      }
      r
  }

  /** A GUID criterion keeps at most one object of a list without duplicates. */
  lemma GuidCriterionSelectsAtMostOne(xs: seq<Guid>, objs: map<Guid, Obj>, x: Guid)
    requires forall y :: y in xs ==> y in objs
    requires NoDup(xs)
    ensures |FieldFilter(xs, objs, ByGuid(x))| <= 1
    ensures forall y :: y in FieldFilter(xs, objs, ByGuid(x)) ==> y == x
  {
    var r := FieldFilter(xs, objs, ByGuid(x));
    NoDupCounts(r, x);
    AllSameCount(r, x);
  }

  /** A list whose every element is `x` holds `x` as often as it is long. */
  lemma {:induction false} AllSameCount(r: seq<Guid>, x: Guid)
    requires forall y :: y in r ==> y == x
    ensures multiset(r)[x] == |r|
    decreases |r|
  {
    if |r| > 0 {
      assert r == [r[0]] + r[1..];
      assert r[0] in r;
      assert forall y :: y in r[1..] ==> y in r;
      AllSameCount(r[1..], x);
    }
  }

  /** A candidate list whose elements all match is left as it is. */
  lemma {:induction false} FieldFilterKeepsMatching(xs: seq<Guid>, objs: map<Guid, Obj>, f: Field)
    requires forall x :: x in xs ==> x in objs && Matches(x, objs[x], f)
    ensures FieldFilter(xs, objs, f) == xs
  {
    if |xs| > 0 {
      FieldFilterKeepsMatching(xs[1..], objs, f);
      assert xs == [xs[0]] + xs[1..];
    }
  }

  /** Filtering twice by the same field gives what filtering once gives. */
  lemma FieldFilterIdempotent(xs: seq<Guid>, objs: map<Guid, Obj>, f: Field)
    requires forall x :: x in xs ==> x in objs
    ensures FieldFilter(FieldFilter(xs, objs, f), objs, f) == FieldFilter(xs, objs, f)
  {
    FieldFilterKeepsMatching(FieldFilter(xs, objs, f), objs, f);
  }

  /** Elements of a sub-multiset are elements of the whole. */
  lemma SubMultisetMembers(a: seq<Guid>, b: seq<Guid>)
    requires multiset(a) <= multiset(b)
    ensures forall x :: x in a ==> x in b
  {
    forall x | x in a ensures x in b {
      assert multiset(a)[x] > 0;
    }
  }

  /** `xs` with positions `i` and `j` exchanged. */
  function Swap(xs: seq<Guid>, i: nat, j: nat): (r: seq<Guid>)
    requires i < |xs| && j < |xs|
    ensures |r| == |xs| && multiset(r) == multiset(xs)
    ensures r[i] == xs[j] && r[j] == xs[i]
    ensures forall k :: 0 <= k < |xs| && k != i && k != j ==> r[k] == xs[k]
  {
    xs[i := xs[j]][j := xs[i]]
  }

  /**
   * Shuffle of the candidate list: the last position is exchanged with a
   * drawn position at or before it, then the rest is shuffled the same way.
   * The result is a permutation of the input.
   */
  function Shuffle(xs: seq<Guid>, rng: Stream): (r: (seq<Guid>, Stream))
    ensures |r.0| == |xs|
    ensures multiset(r.0) == multiset(xs)
    decreases |xs|
  {
    if |xs| <= 1 then (xs, rng)
    else
      var (d, rng1) := rng.Next();
      var last := |xs| - 1;
      var swapped := Swap(xs, last, d % |xs|);
      var (front, rng2) := Shuffle(swapped[..last], rng1);
      assert swapped == swapped[..last] + [swapped[last]];
      (front + [swapped[last]], rng2)
  }

  /** The first `k` elements of a permutation of `xs` are drawn from `xs` without repetition. */
  lemma PrefixOfPermutation(xs: seq<Guid>, ys: seq<Guid>, k: nat)
    requires multiset(ys) == multiset(xs) && k <= |ys|
    ensures multiset(ys[..k]) <= multiset(xs)
    ensures forall x :: x in ys[..k] ==> x in xs
    ensures NoDup(xs) ==> NoDup(ys[..k])
  {
    assert ys == ys[..k] + ys[k..];
    assert multiset(ys[..k]) <= multiset(ys);
    SubMultisetMembers(ys[..k], xs);
    if NoDup(xs) {
      NoDupSubMultiset(ys[..k], xs);
    }
  }

  /**
   * PerformModeSelection: ALL keeps the list; ONE keeps a list of at most one
   * element and otherwise keeps one drawn element of it; K_OF_N with K = 0
   * empties the list, with K at least the list's length keeps it, and
   * otherwise keeps K elements of a shuffle of it.  Whatever it keeps is
   * drawn from the input without repetition, so from a list without
   * duplicates K_OF_N keeps K distinct objects.
   */
  function ModeSelection(xs: seq<Guid>, m: Mode, rng: Stream): (r: (seq<Guid>, Stream))
    ensures multiset(r.0) <= multiset(xs)
    ensures forall x :: x in r.0 ==> x in xs
    ensures m.All? ==> r.0 == xs && r.1 == rng
    ensures m.One? && |xs| <= 1 ==> r.0 == xs && r.1 == rng
    ensures m.One? && |xs| > 1 ==> |r.0| == 1 && r.0[0] in xs
    ensures m.KOfN? && m.k == 0 ==> r.0 == [] && r.1 == rng
    ensures m.KOfN? && 0 < m.k && |xs| <= m.k ==> r.0 == xs && r.1 == rng
    ensures m.KOfN? && 0 < m.k < |xs| ==> |r.0| == m.k
    ensures NoDup(xs) ==> NoDup(r.0)
  {
    match m
    case All => (xs, rng)
    case One =>
      if |xs| <= 1 then (xs, rng)
      else
        var (d, rng1) := rng.Next();
        var i := d % |xs|;
        assert multiset{xs[i]} <= multiset(xs);
        ([xs[i]], rng1)
    case KOfN(k) =>
      if k == 0 then ([], rng)
      else if k >= |xs| then (xs, rng)
      else
        var (shuffled, rng1) := Shuffle(xs, rng);
        PrefixOfPermutation(xs, shuffled, k);
        (shuffled[..k], rng1)
  }

  /**
   * A mode filter applied to its own output changes nothing and draws no
   * number, whatever the state of the engine.
   */
  lemma ModeSelectionIdempotent(xs: seq<Guid>, m: Mode, rng: Stream, rng': Stream)
    ensures var ys := ModeSelection(xs, m, rng).0;
            ModeSelection(ys, m, rng').0 == ys && ModeSelection(ys, m, rng').1 == rng'
  {
  }
}

=== FILE: types.dfy ===
/** Basic vocabulary shared by every part of the simulator model. */
module Types {

  /** Object identity, assigned by the simulation registry (0 means "not registered"). */
  type Guid = nat

  /** Simulated time (`simtime_t`, an unsigned 64-bit integer in the source; unbounded here). */
  type Time = nat

  datatype Option<T> = None | Some(value: T)

  /** Exit code of a successful simulation run. */
  const ExitOk: int := 0
  /** Exit code of a simulation run terminated because of problems. */
  const ExitFail: int := -1

  /**
   * An infinite stream of natural numbers together with a read position.
   * It stands for every source of numbers the simulator consumes: the
   * periodic-delta generators and an event's pseudo-random engine.
   */
  datatype Stream = Stream(at: nat -> nat, pos: nat) {

    /** The next value of the stream, and the stream advanced past it. */
    function Next(): (nat, Stream)
    {
      (at(pos), Stream(at, pos + 1))
    }
  }

  /** No value occurs twice in `s`. */
  ghost predicate NoDup<T>(s: seq<T>)
  {
    forall i, j :: 0 <= i < j < |s| ==> s[i] != s[j]
  }

  /** `a` is `b` with some elements left out, the rest in their order. */
  ghost predicate Subseq<T>(a: seq<T>, b: seq<T>)
    decreases |b|
  {
    |a| == 0 || (|b| > 0 && ((a[0] == b[0] && Subseq(a[1..], b[1..])) || Subseq(a, b[1..])))
  }

  /** A sequence without duplicates holds each value at most once. */
  lemma {:induction false} NoDupCounts<T>(s: seq<T>, x: T)
    requires NoDup(s)
    ensures multiset(s)[x] <= 1
    decreases |s|
  {
    if |s| > 0 {
      assert s == [s[0]] + s[1..];
      assert s[0] !in s[1..] by {
        forall k | 0 <= k < |s[1..]| ensures s[1..][k] != s[0] {
          assert s[1..][k] == s[k + 1];
        }
      }
      NoDupCounts(s[1..], x);
    }
  }

  /** A value held at two positions is counted at least twice. */
  lemma RepeatCounts<T>(s: seq<T>, i: nat, j: nat)
    requires i < j < |s| && s[i] == s[j]
    ensures multiset(s)[s[i]] >= 2
  {
    assert s == s[..j] + s[j..];
    assert s[i] in s[..j];
    assert s[j] in s[j..];
  }

  /** Taking part of a sequence without duplicates leaves none. */
  lemma NoDupSubMultiset<T>(a: seq<T>, b: seq<T>)
    requires NoDup(b) && multiset(a) <= multiset(b)
    ensures NoDup(a)
  {
    forall i, j | 0 <= i < j < |a|
      ensures a[i] != a[j]
    {
      if a[i] == a[j] {
        RepeatCounts(a, i, j);
        NoDupCounts(b, a[i]);
      }
    }
  }

  /** Taking part of a sequence's elements, counted with multiplicity, leaves no more of them. */
  lemma {:induction false} SubMultisetLength<T>(a: seq<T>, b: seq<T>)
    requires multiset(a) <= multiset(b)
    ensures |a| <= |b|
    decreases |a|
  {
    if |a| > 0 {
      var x := a[0];
      assert x in multiset(b);
      var k :| 0 <= k < |b| && b[k] == x;
      var rest := b[..k] + b[k + 1..];
      assert b == b[..k] + [x] + b[k + 1..];
      assert multiset(rest) == multiset(b) - multiset{x};
      assert a == [x] + a[1..];
      SubMultisetLength(a[1..], rest);
    }
  }
}
